=== FILE: README.md ===
# Song-guessing game: lobby server, track service and game pages in Dafny

This project models the core of a multiplayer "guess the song" game:

- the WebSocket lobby server (`server/src/ws-server.ts`): joining a lobby, five
  rounds of guessing with a 5-4-3-2-1 reward table, round and game completion,
  winners, the stats written at game over, host promotion on disconnect, and
  fan-out to the open sockets of a lobby;
- the earlier lobby server (`server/ws-server.ts`), which has join, one-track
  start and leave, and no rounds;
- the decision logic of the track service (`server/services/spotify.ts`): the
  access-token cache, the preview-URL fallback, the choice of search-result image,
  the bounded cache of recently played tracks and the random playlist pick;
- the client pages that play a round: the daily page
  (`client/src/pages/Daily.tsx`) and the multiplayer lobby page
  (`client/src/pages/MultiplayerLobby.tsx`).

Every handler is a pure function. It takes the lobby table and the connection's
two closure variables (its lobby id and player id), and returns the new table,
the new variables and the messages sent. A message sent is a `Delivery(socket,
message)`. A socket's ready state is its membership in a set of open sockets
passed in.

Whatever the handlers learn from outside is a parameter. That covers:

- the random player id;
- the outcome of the track fetch;
- the index of the first database query that throws;
- the clock;
- the token endpoint's answer;
- the preview finder's answer;
- the random index of the playlist pick.

JavaScript truthiness is written out: a string is truthy when present and
non-empty, and a user id when present and non-zero.

Modules:

- `Wrappers`: `Option`, plus the truthiness predicates.
- `Seqs`: duplicate-freedom, counting, and `filter(x => x !== y)`.
- `Outbox`: sockets, connections and broadcasts.
- `Spotify`: the track service.
- `LobbyState`: the types, constants, winner rule and invariants of the lobby server.
- `GameOverStats`: the users table written at game over.
- `LobbyServer`: the lobby server's handlers.
- `LobbyServerFacts`: properties that span several handlers.
- `LegacyLobbyServer`: the earlier lobby server.
- `DailyGame`: the daily page's round.
- `LobbyPage`: the multiplayer lobby page.

The lobby server is modelled as the code behaves. Several of its consequences
are easy to miss when reading the handlers one at a time, and a lemma in
`LobbyServerFacts` states each of them:

- Nothing limits a lobby to one host. The host flag a client sends is trusted, so
  a second client asking for it becomes a second host
  (`TrustedHostFlagAllowsTwoHosts`).
- `startGame` and `nextSong` are accepted from any connection and in any phase.
  Neither resets the round counter, so each one adds one to it
  (`StartsOnlyCountRoundsUp`).
- The round counter is bumped before the game-over check, so it does pass
  `maxRounds`. Every `startGame`/`nextSong` after the last round runs game over
  again and counts another game in every reporting user's stats, once per
  player reporting to it
  (`GameOverRepeatsOnEveryNextSong`).
- The list of used track ids is written but never read, so a track that was
  already played can start another round (`UsedTrackIdsDoNotPreventRepeats`).
- The players are reset before the track fetch. A failed fetch leaves them
  reset and keeps the bumped round, so the retry starts the round after it
  (`FailedFetchUsesUpARound`).
- A join adds a socket and a player together, but a second join on the same
  socket under a new id leaves a player with no socket behind it after the
  close (`RejoinOnOneSocketLeavesStalePlayer`).

## Model

| member | source | states |
|---|---|---|
| LobbyState.NewPlayer | server/src/ws-server.ts:84-95 | a joined player starts with score 0, no attempts, no guesses, not correct, and the name, host flag and user id it sent |
| LobbyState.PointsFor | server/src/ws-server.ts:27-27 | a correct guess on attempt 1..5 earns 6 - attempt points, and any other attempt number earns 0 |
| LobbyState.MaxScore | server/src/ws-server.ts:138-138 | the top score is at least every player's score and is held by some player |
| LobbyState.WithScore | server/src/ws-server.ts:139-139 | the filter keeps exactly the players with the given score |
| LobbyState.Winners | server/src/ws-server.ts:138-139 | the winners are exactly the players whose score no one beats, ties included; there is a winner iff there is a player |
| LobbyState.TopScoreIsMax | server/src/ws-server.ts:138-139 | a player holds the maximum score iff no player beats it, and some player holds it |
| LobbyState.FindPlayer | server/src/ws-server.ts:122-123 | the lookup yields the first player with the id, and finds nothing iff no player has it |
| LobbyState.WithoutPlayer | server/src/ws-server.ts:177-177 | the filter keeps exactly the players with another id; its length drops by the number of players with that id |
| LobbyState.WithoutPlayerCons | server/src/ws-server.ts:177-177 | the filter drops the first player exactly when it carries the id and keeps the rest in order |
| LobbyState.WithoutPlayerConcat | server/src/ws-server.ts:177-177 | filtering a concatenation is concatenating the filtered parts, so join order survives the filter |
| LobbyState.WithoutPlayerFirst | server/src/ws-server.ts:177-177 | the first player kept is the earliest player with another id, and every player before it carries the id |
| GameOverStats.RecordGame | server/src/ws-server.ts:36-43 | the UPDATE adds one game and one win iff won; a win extends the current streak and raises the best streak to it when it is longer; a loss zeroes the current streak and keeps the best one |
| GameOverStats.UpdateAll | server/src/ws-server.ts:32-48 | the loop keeps the set of users and their consistency, leaves users not reported untouched, and a failure at the first query changes nothing |
| GameOverStats.UpdateAllCounts | server/src/ws-server.ts:32-48 | a user gains at most one game per report; with no failure, exactly one game per report and one win per winning report |
| GameOverStats.GameOverDB | server/src/ws-server.ts:29-49 | the game-over write keeps the set of users and their consistency, leaves users nobody reported untouched, and with no failure adds exactly one game per report and one win per winning report |
| GameOverStats.GameOverDBSingleReport | server/src/ws-server.ts:29-49 | a user reported by one player gets exactly one RecordGame, won iff that player is a stats winner |
| GameOverStats.UpdateAllSingleReport | server/src/ws-server.ts:32-48 | with no failure, the loop applies one RecordGame to a user reported once, won iff its reporter is a stats winner |
| GameOverStats.ReportsAt | server/src/ws-server.ts:33-33 | a player reporting to a user makes that user's report count positive |
| GameOverStats.StatsWinnerIsScoringWinner | server/src/ws-server.ts:34-34 | a stats win is exactly a place among the announced winners with a positive score |
| GameOverStats.ZeroScoreGameWinsNothing | server/src/ws-server.ts:34-35 | when every score is 0 nobody is credited a win, although every player is a top scorer |
| GameOverStats.NoWinReports | server/src/ws-server.ts:34-34 | with all scores 0 no report counts as a win |
| GameOverStats.CurrentStreakIsFinalRun | server/src/ws-server.ts:40-40 | replaying a user's results, the current streak is the length of the final run of wins |
| GameOverStats.ReplayCounts | server/src/ws-server.ts:36-43 | replaying a list of results keeps the counters consistent and plays one game per result |
| GameOverStats.FinalRunStep | server/src/ws-server.ts:40-40 | a win extends the final run of wins by one and a loss ends it |
| GameOverStats.WindowWithLoss | server/src/ws-server.ts:40-40 | a stretch of results containing a loss is not all wins |
| GameOverStats.WinningSuffixFitsFinalRun | server/src/ws-server.ts:40-40 | any all-win suffix of the results is no longer than the current streak |
| GameOverStats.MaxStreakBoundsEveryRun | server/src/ws-server.ts:41-41 | the best streak is at least the length of every run of consecutive wins |
| GameOverStats.RunsAtMostStep | server/src/ws-server.ts:40-41 | if every run so far fits the best streak and the best streak covers the extended final run after a win, every run of the longer list fits too |
| GameOverStats.WinRunInPrefix | server/src/ws-server.ts:41-41 | a run of wins before the latest result is still a run of wins once it is added |
| GameOverStats.FinalRunIsWinRun | server/src/ws-server.ts:40-40 | the final run of wins is a run of wins ending at the latest result |
| GameOverStats.MaxStreakIsAchieved | server/src/ws-server.ts:41-41 | the best streak is the length of some actual run of consecutive wins |
| Outbox.SendToOpen | server/src/ws-server.ts:248-255 | a broadcast carries only the one message, to open sockets of the lobby; each open socket gets it once for every time it is registered in the lobby, and a closed one never gets it |
| LobbyServer.Broadcast | server/src/ws-server.ts:248-255 | a missing lobby gets nothing; otherwise the message reaches the open sockets of the lobby, once per registration, and nothing else |
| LobbyServer.JoinLobby | server/src/ws-server.ts:68-109 | join creates a missing lobby and adds the player and socket together, unless the id is taken; the joiner gets joinedLobby first, then the lobby gets the player list; no other lobby changes |
| LobbyServer.FinishGame | server/src/ws-server.ts:137-144 | game over writes the stats from the players as they stand and sends the winners and players to the lobby |
| LobbyServer.GuessAcceptedForFirstPending | server/src/ws-server.ts:119-125 | a guess is acted on iff the lobby exists and the first player with the id is still guessing |
| LobbyServer.RecordGuess | server/src/ws-server.ts:127-134 | a guess appends its outcome and nothing else to the guesses, sets the attempt to the guess count, marks a correct guess, adds the points for that attempt (positive within five attempts) on a correct guess and none on a wrong one, and changes no other field |
| LobbyServer.PlayerGuess | server/src/ws-server.ts:117-158 | a guess for a missing lobby or player, or a resolved player, changes nothing; otherwise only that player changes, gaining the outcome and attempt and, if correct, the points; the lobby hears gameOver, roundOver or updatePlayers by the round-complete and last-round tests |
| LobbyServer.ResetAll | server/src/ws-server.ts:212-216 | every player starts the round with no attempts, no guesses and not correct, keeping everything else |
| LobbyServer.StartNextRound | server/src/ws-server.ts:195-246 | the round always goes up by one; past the last round game over runs with the players untouched; otherwise the players are reset, and the outcome of the fetch decides between starting the round, the load error and the invalid-data error |
| LobbyServer.PromoteHost | server/src/ws-server.ts:182-185 | with players left and no host among them the first becomes host; otherwise nothing changes; afterwards there is a host if there are players |
| LobbyServer.Close | server/src/ws-server.ts:171-191 | close before a join, or for a missing lobby, does nothing; otherwise every copy of the socket and every player with the id go; the lobby is deleted when no socket is left, else a host is promoted and the list broadcast |
| LobbyServer.HandleMessage | server/src/ws-server.ts:59-169 | ping is answered with pong alone; unknown types change nothing; only joinLobby touches the connection's variables |
| LobbyServerFacts.RecordGuessKeepsPlayerInv | server/src/ws-server.ts:125-134 | recording a guess of a player still guessing keeps attempts equal to guesses, at most 5, and a correct outcome only as the last guess |
| LobbyServerFacts.GuessKeepsInv | server/src/ws-server.ts:117-158 | playerGuess keeps every lobby and every user row well formed |
| LobbyServerFacts.NextRoundKeepsInv | server/src/ws-server.ts:195-246 | startNextRound keeps every lobby and every user row well formed |
| LobbyServerFacts.JoinKeepsInv | server/src/ws-server.ts:68-109 | joinLobby keeps every lobby well formed; a created lobby has five rounds |
| LobbyServerFacts.CloseKeepsInv | server/src/ws-server.ts:171-191 | close keeps every lobby well formed |
| LobbyServerFacts.MessageKeepsInv | server/src/ws-server.ts:59-169 | every inbound message keeps the server state well formed |
| LobbyServerFacts.AttemptsStayWithinBudget | server/src/ws-server.ts:125-128 | in a well-formed state no player has more than five attempts or guesses in the round |
| LobbyServerFacts.AcceptedGuessScoring | server/src/ws-server.ts:127-134 | an accepted guess is attempt number k+1 for a player with k attempts; if correct it earns SCORE_POINTS[k], between 1 and 5, and if wrong nothing |
| LobbyServerFacts.MessagesNeverLowerScores | server/src/ws-server.ts:59-169 | no message lowers a score or moves an existing player |
| LobbyServerFacts.JoinKeepsScores | server/src/ws-server.ts:68-109 | a join only appends players, so every existing player keeps its place, id and score |
| LobbyServerFacts.GuessKeepsScores | server/src/ws-server.ts:125-134 | a guess can only add points to the guessing player and leaves the others alone |
| LobbyServerFacts.NextRoundKeepsScores | server/src/ws-server.ts:195-246 | starting a round, or running game over past the last one, keeps every player's place, id and score |
| LobbyServerFacts.CloseLeavesAHost | server/src/ws-server.ts:179-190 | after a close that leaves players, there is a host; if none was left, exactly the first player becomes the only host; otherwise the flags are untouched |
| LobbyServerFacts.ClosePromotesEarliestSurvivor | server/src/ws-server.ts:176-190 | after a close that keeps the lobby, the first player is the earliest player in join order with another id, and it is host iff it was or no remaining player was |
| LobbyServerFacts.PromotedHeadIsEarliestSurvivor | server/src/ws-server.ts:177-185 | the head of the filtered and promoted list is the earliest player with another id, host iff it was or no player with another id was |
| LobbyServerFacts.KeptHostIsSurvivingHost | server/src/ws-server.ts:177-182 | the filtered list has a host iff some player with another id is host |
| LobbyServerFacts.PromoteHostLeavesOneHost | server/src/ws-server.ts:182-185 | after the promotion a non-empty list has a host; with none before, exactly the first player is host; with one before, nothing changes |
| LobbyServerFacts.NoHostCountsZero | server/src/ws-server.ts:182-182 | a list without a host has host count zero |
| LobbyServerFacts.CloseKeepsLockstepForSingleJoin | server/src/ws-server.ts:176-177 | when the socket was registered once and its player id is unique, close keeps the difference between socket and player counts |
| LobbyServerFacts.JoinThenCloseRestores | server/src/ws-server.ts:68-109 | a fresh connection joining and then closing gives the server back unchanged, for a new lobby or a lobby with other sockets and a host |
| LobbyServerFacts.JoinThenCloseExisting | server/src/ws-server.ts:171-191 | the join-then-close round trip for a lobby that already existed |
| LobbyServerFacts.JoinExisting | server/src/ws-server.ts:84-97 | a join with a new id into an existing lobby appends the new player and the socket, and records the lobby and player id on the connection |
| LobbyServerFacts.CloseKeepingLobby | server/src/ws-server.ts:176-190 | a close that leaves a socket in the lobby replaces only that lobby, with the socket filtered out and the remaining players after promotion |
| LobbyServerFacts.PromoteHostKeepsHosted | server/src/ws-server.ts:182-185 | a list with a host, or an empty list, is left as it is by the promotion |
| LobbyServerFacts.CloseUndoesJoin | server/src/ws-server.ts:171-191 | closing a connection whose player and socket were just appended to a lobby with a host gives the server back |
| LobbyServerFacts.PlayerAppendedThenRemoved | server/src/ws-server.ts:177-177 | filtering out the id of an appended player with a new id gives the list back |
| LobbyServerFacts.HostCountAppend | server/src/ws-server.ts:95-95 | appending a player adds its host flag to the host count |
| LobbyServerFacts.HostCountPositive | server/src/ws-server.ts:182-182 | a list that holds a host has a positive host count |
| LobbyServerFacts.CountAppend | server/src/ws-server.ts:96-96 | appending a socket adds one to its count and nothing to the counts of other sockets |
| LobbyServerFacts.CountIdAppend | server/src/ws-server.ts:95-95 | appending a player adds one to the count of its id |
| LobbyServerFacts.NotFoundCountsZero | server/src/ws-server.ts:122-122 | an id the lookup does not find is held by no player |
| LobbyServerFacts.TrustedHostFlagAllowsTwoHosts | server/src/ws-server.ts:69-95 | a joiner that sends isHost into a lobby with a host makes at least two hosts |
| LobbyServerFacts.RejoinOnOneSocketLeavesStalePlayer | server/src/ws-server.ts:84-97 | two joins on one socket register it twice, and their close leaves one more player than before with no socket for it |
| LobbyServerFacts.RejoinCounts | server/src/ws-server.ts:84-97 | a socket pushed twice occurs twice and both copies are filtered out, while of two players pushed only the one with the later id is filtered out |
| LobbyServerFacts.GameOverRepeatsOnEveryNextSong | server/src/ws-server.ts:199-210 | after the last round each further start runs game over again: two starts add twice each user's number of reporting players to its games played |
| LobbyServerFacts.UsedTrackIdsDoNotPreventRepeats | server/src/ws-server.ts:231-233 | a track whose id was already used starts the round, and its id is recorded twice |
| LobbyServerFacts.StartsOnlyCountRoundsUp | server/src/ws-server.ts:111-199 | any run of startGame and nextSong messages, from any connections, in any phase and with each its own fetch and database outcome, raises the round counter by exactly their number and never resets it |
| LobbyServerFacts.FailedFetchUsesUpARound | server/src/ws-server.ts:199-239 | after a failed or unusable fetch the players stay reset, the round stays bumped and the old track stays; the next successful start begins the round after that one |
| LegacyLobbyServer.WithoutPlayer | server/ws-server.ts:126-126 | the filter keeps exactly the players with another id, its length drops by the number of players with the id, and a list without the id is unchanged |
| LegacyLobbyServer.WithoutPlayerCons | server/ws-server.ts:126-126 | the filter drops the first player exactly when it carries the id and keeps the rest in order |
| LegacyLobbyServer.WithoutPlayerConcat | server/ws-server.ts:126-126 | filtering a concatenation is concatenating the filtered parts, so join order survives the filter |
| LegacyLobbyServer.Broadcast | server/ws-server.ts:143-155 | a missing lobby gets nothing; otherwise the message reaches the open sockets of the lobby, once per registration, and nothing else |
| LegacyLobbyServer.JoinLobby | server/ws-server.ts:35-67 | join creates a missing lobby, always appends the socket and a new player with score 0, and broadcasts the list; no other lobby changes |
| LegacyLobbyServer.StartGame | server/ws-server.ts:69-104 | a missing lobby changes nothing; a failed request or a body without a track id broadcasts the load error and changes nothing; otherwise the track id is stored and the track broadcast |
| LegacyLobbyServer.Close | server/ws-server.ts:111-139 | close before a join, or for a missing lobby, does nothing; otherwise the socket and player go, and the lobby is deleted when no socket is left or else the list is broadcast, with no host promotion |
| LegacyLobbyServer.HandleMessage | server/ws-server.ts:29-109 | unknown types change nothing; startGame never adds or removes a lobby; only joinLobby touches the connection's variables |
| LegacyLobbyServer.JoinKeepsLockstep | server/ws-server.ts:55-58 | a join keeps socket and player counts equal |
| LegacyLobbyServer.CloseNeverPromotes | server/ws-server.ts:122-133 | after a close every remaining player was already a player, flags included |
| LegacyLobbyServer.JoinThenCloseRestores | server/ws-server.ts:35-139 | a fresh connection joining and then closing gives the lobby table back unchanged |
| LegacyLobbyServer.PlayerAppendedThenRemoved | server/ws-server.ts:126-126 | filtering out the id of an appended player with a new id gives the list back |
| LegacyLobbyServer.RejoinLeavesStalePlayer | server/ws-server.ts:55-58 | two joins on one socket, then a close, leave the first player in the lobby with its socket gone |
| Spotify.ExpiredCacheStaysExpired | server/services/spotify.ts:20-20 | a cache that may not be served at one clock reading may not be served at any later one |
| Spotify.GetAccessToken | server/services/spotify.ts:18-60 | a valid cache is served untouched; missing credentials or a failed request give no token and keep the cache; a grant is cached with expiry (clock read after the response) + (expires_in - 60) s and returned |
| Spotify.GrantedTokenIsReusedUntilExpiry | server/services/spotify.ts:20-22 | a granted token is served from the cache by every later call strictly before its shortened expiry, counted from when the grant was stored, and by none after |
| Spotify.ShortLivedTokenIsNeverReused | server/services/spotify.ts:53-53 | a grant living no more than the 60-second margin is never served from the cache |
| Spotify.GetPreviewUrl | server/services/spotify.ts:63-92 | a truthy API URL wins; else the finder's first URL of its first result; no URL iff neither exists, including when the finder is missing or throws |
| Spotify.PreviewUrlProvenance | server/services/spotify.ts:77-82 | a URL handed out is the API's or one from the finder's first result |
| Spotify.SearchImage | server/services/spotify.ts:173-173 | the third image's URL is preferred, then the first's; none iff neither is truthy; a URL returned belongs to an image |
| Spotify.AddRecent | server/services/spotify.ts:189-204 | the recent list is exactly min(50, old length without the id + 1) long, ends with the new id, and is a suffix of the old list with the id moved to the end |
| Spotify.AddRecentKeepsNoDup | server/services/spotify.ts:189-204 | adding an id keeps the recent list duplicate-free, as the set it stands for is |
| Spotify.AddRecentTrack | server/services/spotify.ts:192-204 | the eviction loop computes the same list; below 50 nothing is evicted, and refreshing a present id never grows the list |
| Spotify.Candidates | server/services/spotify.ts:222-225 | the candidates are exactly the playlist tracks with a truthy id not in the recent list |
| Spotify.PickFromPlaylist | server/services/spotify.ts:227-237 | the pick retries after clearing iff there is no candidate; a picked id is a candidate, not recent, and is recorded as most recent |
| Spotify.RetryAfterClearingFindsCandidate | server/services/spotify.ts:227-230 | after the cache is cleared, a playlist holding any track with an id yields a candidate |
| Seqs.Without | server/src/ws-server.ts:176-176 | the filter keeps exactly the elements different from the one removed, drops one per occurrence and keeps a duplicate-free list duplicate-free |
| Seqs.WithoutCons | server/src/ws-server.ts:176-176 | the filter drops the head exactly when it is the removed element and keeps the rest in order |
| Seqs.WithoutConcat | server/src/ws-server.ts:176-176 | filtering a concatenation is concatenating the filtered parts, so socket order survives the filter |
| Seqs.CountInNoDup | server/services/spotify.ts:190-190 | in a duplicate-free list an element occurs once if present and never otherwise |
| Seqs.NoDupCons | server/services/spotify.ts:197-197 | putting a new element in front of a duplicate-free list keeps it duplicate-free |
| Seqs.WithoutAppended | server/src/ws-server.ts:176-176 | removing a socket appended to a list without it gives the list back |
| Seqs.WithoutAppendedNoDup | server/services/spotify.ts:194-197 | deleting an id from a duplicate-free list and appending it keeps the list duplicate-free |
| Seqs.NoDupSuffix | server/services/spotify.ts:200-203 | evicting the oldest entries keeps a duplicate-free list duplicate-free |
| Seqs.MapRestored | server/src/ws-server.ts:176-190 | writing a lobby's old value back undoes replacing it |
| Seqs.MapAddedThenRemoved | server/src/ws-server.ts:187-187 | deleting a lobby that was just created undoes its creation |
| DailyGame.NewRound | client/src/pages/Daily.tsx:14-18 | a round starts with attempt 0, no guesses, not over and not won |
| DailyGame.JoinArtists | client/src/pages/Daily.tsx:65-65 | joining no artists gives the empty string, one artist gives that name, and the first artist always leads |
| DailyGame.JoinArtistsSnoc | client/src/pages/Daily.tsx:65-65 | joining one more artist appends ", " and that name to the joined list |
| DailyGame.FirstSeparator | client/src/pages/Daily.tsx:65-65 | the position found holds ", " with none before it, and nothing is found exactly when the text holds no ", " |
| DailyGame.SeparatorAfterName | client/src/pages/Daily.tsx:65-65 | in a name free of ", " followed by ", " and more text, the first separator is the one right after the name |
| DailyGame.JoinArtistsSplits | client/src/pages/Daily.tsx:65-65 | splitting the joined artists at each ", " gives the artists back when no name holds ", " |
| DailyGame.GuessLabel | client/src/pages/Daily.tsx:65-65 | a guess label is exactly the track name, then " - ", then the artists joined with ", " |
| DailyGame.HandleGuess | client/src/pages/Daily.tsx:60-80 | a guess after the end or without a track is ignored; otherwise it is recorded, and a right guess wins, a wrong fifth guess loses, and any other wrong guess moves to the next attempt |
| DailyGame.SnippetDuration | client/src/pages/Daily.tsx:43-43 | attempt k of 0..4 plays 3(k+1) seconds, and any other attempt plays 15 |
| DailyGame.NewRoundReachable | client/src/pages/Daily.tsx:14-18 | a new round is a reachable state |
| DailyGame.GuessKeepsReachable | client/src/pages/Daily.tsx:60-80 | a guess keeps the page among reachable states |
| DailyGame.ReachableBounds | client/src/pages/Daily.tsx:7-8 | a reachable page holds at most five guesses, is lost iff five wrong guesses are on record, and plays 3(k+1) seconds on attempt k |
| LobbyPage.JoinRequestFor | client/src/pages/MultiplayerLobby.tsx:35-72 | the join carries the name parameter when it is present and non-empty and "Anonymous" otherwise, and host iff the host parameter is "true" |
| LobbyPage.LoadGameTrack | client/src/pages/MultiplayerLobby.tsx:128-146 | a track from the server starts a fresh round on it, leaving the lobby part of the page alone |
| LobbyPage.OnMessage | client/src/pages/MultiplayerLobby.tsx:75-105 | a player list replaces the shown one (a missing list shows none); a round with a track starts the game, ends loading and opens a fresh round; an error keeps everything else and shows its message, or "Server error" when the message is missing or empty; anything else changes nothing |
| LobbyPage.HandleGuess | client/src/pages/MultiplayerLobby.tsx:169-189 | the page's guess is the daily page's guess rule, applied to the round alone |
| LobbyPage.StartGame | client/src/pages/MultiplayerLobby.tsx:191-197 | a start request is sent iff the page is host and its socket is referenced, and it names the lobby |
| LobbyPage.MessagesKeepRoundReachable | client/src/pages/MultiplayerLobby.tsx:75-105 | no server message takes the page's round out of the reachable states |
| LobbyPage.Digit | client/src/pages/MultiplayerLobby.tsx:201-201 | each digit 0..9 prints as the character that far past '0' |
| LobbyPage.NatToString | client/src/pages/MultiplayerLobby.tsx:201-201 | an index prints as at least one decimal digit, exactly one below ten |
| LobbyPage.NatToStringRoundTrip | client/src/pages/MultiplayerLobby.tsx:201-201 | reading the printed digits back as a decimal number gives the index |
| LobbyPage.NatToStringInjective | client/src/pages/MultiplayerLobby.tsx:201-201 | different indices print differently |
| LobbyPage.PlayerKey | client/src/pages/MultiplayerLobby.tsx:200-202 | a player's key is its id when present, else its name, a dash and the index printed in decimal, which reads back as the index |
| LobbyPage.LastDash | client/src/pages/MultiplayerLobby.tsx:201-201 | the position found holds a dash and none follows it |
| LobbyPage.LastDashOfFallbackKey | client/src/pages/MultiplayerLobby.tsx:201-201 | in a fallback key the last dash is the one right after the name |
| LobbyPage.FallbackKeySplits | client/src/pages/MultiplayerLobby.tsx:201-201 | a name, a dash and digits split back into the same name and digits |
| LobbyPage.FallbackKeyDetermines | client/src/pages/MultiplayerLobby.tsx:200-202 | two players without an id share a key iff they have the same name and index |

## Left out

- Transport: JSON parsing, payload destructuring that throws on a missing payload, and the server set-up. Messages arrive parsed as a datatype.
- Interleaving at `await`: each handler runs to completion in the model. The lobby table can change while the real server waits for the track fetch or the database, and that is not modelled.
- HTTP and database I/O: the token, track, search and playlist requests and the `UPDATE` query appear only through their outcomes. The track and search field mapping (`getTrack`, `searchTracks` apart from the image choice) is not modelled.
- `getRandomTrack`'s recursion: only one pass is modelled (`PickFromPlaylist`). Its unbounded retry when the playlist holds no track with an id is not.
- Randomness and clocks: player ids, the random pick index and `Date.now()` are inputs.
- Audio, timers and rendering of the pages: `playSnippet` only through its duration rule, and no routing or markup.
- The multiplayer page's connection lifecycle (`onopen`, `onclose`, `onerror`, clean-up): they set display strings and open or close the socket.
- `getRandomTrack_Fallback` (`server/services/spotify.ts`, lines 246-268): it is a single search request for a random letter, so it is HTTP only.
- The unattached search code that follows the fallback (lines 270-303 of the same file): it repeats `searchTracks` outside any function, and there is nothing to model in it.
- Lobby ids that name properties of a plain JavaScript object (`"__proto__"`, `"constructor"`): the lobby table is a plain map in the model.
- Numeric corner cases of JavaScript (`NaN`, `undefined` scores, floating point): scores and counters are integers.
- GameOverStats.UpdateAllCounts: when a later query fails, it only bounds each user's game count between the old count and the old count plus its reports. It does not say which rows were written before the failure.
- LobbyServerFacts.CloseKeepsLockstepForSingleJoin: states lockstep only when the socket joined once, because the code keeps it only then.

=== FILE: daily_game.dfy ===
/**
 * The single-player guessing round of the daily page (client/src/pages/Daily.tsx),
 * whose guess handler and snippet rule the multiplayer page repeats: up to five
 * guesses at one hidden track, each unlocking a longer audio snippet.
 */
module DailyGame {
  import opened Wrappers
  import Spotify

  /** MAX_ATTEMPTS. */
  const MaxAttempts: int := 5

  /** SNIPPET_DURATIONS: seconds of audio played on attempt 0, 1, ..., 4. */
  const SnippetDurations: seq<int> := [3, 6, 9, 12, 15]

  /** The `|| 15` fallback of the snippet lookup. */
  const FallbackDuration: int := 15

  /** An autocomplete suggestion the player picks as a guess. */
  datatype Suggestion = Suggestion(id: string, name: string, artists: seq<string>)

  /** One line of the guess history: whether it was right, and its label. */
  datatype GuessEntry = GuessEntry(correct: bool, guess: string)

  /** The page's round state. */
  datatype GuessState = GuessState(
    track: Option<Spotify.Track>,
    currentAttempt: int,
    guesses: seq<GuessEntry>,
    gameOver: bool,
    won: bool)

  /** The state of a round about to be played on `track` (absent while loading or after a failed load). */
  function NewRound(track: Option<Spotify.Track>): (st: GuessState)
    ensures st.track == track && st.currentAttempt == 0 && st.guesses == []
    ensures !st.gameOver && !st.won
  {
    GuessState(track, 0, [], false, false)
  }

  /** `artists.join(", ")`. */
  function JoinArtists(artists: seq<string>): (r: string)
    ensures |artists| == 0 ==> r == ""
    ensures |artists| == 1 ==> r == artists[0]
    ensures |artists| > 0 ==> |r| >= |artists[0]| && r[..|artists[0]|] == artists[0]
  {
    if |artists| == 0 then ""
    else if |artists| == 1 then artists[0]
    else artists[0] + ", " + JoinArtists(artists[1..])
  }

  /** The join read from the other end: one more artist adds ", " and its name. */
  lemma {:induction false} JoinArtistsSnoc(artists: seq<string>, a: string)
    requires |artists| > 0
    ensures JoinArtists(artists + [a]) == JoinArtists(artists) + ", " + a
    decreases |artists|
  {
    var longer := artists + [a];
    assert longer[0] == artists[0];
    if |artists| == 1 {
      assert longer[1..] == [a];
    } else {
      assert longer[1..] == artists[1..] + [a];
      JoinArtistsSnoc(artists[1..], a);
      assert JoinArtists(longer) == artists[0] + ", " + (JoinArtists(artists[1..]) + ", " + a);
    }
  }

  /** `name` never holds the separator ", ". */
  predicate NoSeparator(name: string) {
    forall k :: 0 <= k < |name| - 1 ==> !(name[k] == ',' && name[k + 1] == ' ')
  }

  /** The position of the first ", " in `s`, if any. */
  function FirstSeparator(s: string): (r: Option<nat>)
    ensures r.Some? ==> r.value + 2 <= |s| && s[r.value] == ',' && s[r.value + 1] == ' '
    ensures r.None? <==> NoSeparator(s)
  {
    assert forall j :: 1 <= j < |s| ==> s[j] == s[1..][j - 1];
    if |s| < 2 then None
    else if s[0] == ',' && s[1] == ' ' then Some(0)
    else match FirstSeparator(s[1..])
      case None => None
      case Some(k) => Some(k + 1)
  }

  /** Cut a joined artist list at every ", ". */
  function SplitArtists(s: string): seq<string>
    decreases |s|
  {
    match FirstSeparator(s)
    case None => [s]
    case Some(k) => [s[..k]] + SplitArtists(s[k + 2..])
  }

  /** After a name without the separator, the first separator is the one that follows it. */
  lemma {:induction false} SeparatorAfterName(name: string, t: string)
    requires NoSeparator(name)
    ensures FirstSeparator(name + ", " + t) == Some(|name|)
    decreases |name|
  {
    var s := name + ", " + t;
    if |name| > 0 {
      assert s[1..] == name[1..] + ", " + t;
      assert !(s[0] == ',' && s[1] == ' ') by {
        if |name| == 1 { assert s[1] == ','; } else { assert s[0] == name[0] && s[1] == name[1]; }
      }
      SeparatorAfterName(name[1..], t);
    }
  }

  /** Artist names without the separator are recovered from their join. */
  lemma {:induction false} JoinArtistsSplits(artists: seq<string>)
    requires |artists| > 0
    requires forall i :: 0 <= i < |artists| ==> NoSeparator(artists[i])
    ensures SplitArtists(JoinArtists(artists)) == artists
    decreases |artists|
  {
    var a := artists[0];
    if |artists| > 1 {
      var rest := JoinArtists(artists[1..]);
      var s := a + ", " + rest;
      SeparatorAfterName(a, rest);
      assert s[..|a|] == a && s[|a| + 2..] == rest;
      JoinArtistsSplits(artists[1..]);
      assert artists == [a] + artists[1..];
    }
  }

  /** The label a guess is shown with: the track name, " - ", then the artists. */
  function GuessLabel(sel: Suggestion): (r: string)
    ensures |r| >= |sel.name| + 3 && r[..|sel.name|] == sel.name
    ensures r[|sel.name|..|sel.name| + 3] == " - "
    ensures r[|sel.name| + 3..] == JoinArtists(sel.artists)
  {
    sel.name + " - " + JoinArtists(sel.artists)
  }

  /**
   * handleGuess: ignored once the round is over or while there is no track;
   * otherwise the guess is recorded, and a right guess wins, a fifth wrong guess
   * loses, and any other wrong guess moves to the next attempt.
   */
  function HandleGuess(st: GuessState, sel: Suggestion): (r: GuessState)
    ensures st.gameOver || st.track.None? ==> r == st
    ensures !st.gameOver && st.track.Some? ==>
              var correct := sel.id == st.track.value.id;
              && r.track == st.track
              && r.guesses == st.guesses + [GuessEntry(correct, GuessLabel(sel))]
              && (correct ==> r.won && r.gameOver && r.currentAttempt == st.currentAttempt)
              && (!correct && st.currentAttempt + 1 >= MaxAttempts ==>
                    r.gameOver && !r.won && r.currentAttempt == st.currentAttempt)
              && (!correct && st.currentAttempt + 1 < MaxAttempts ==>
                    !r.gameOver && r.won == st.won && r.currentAttempt == st.currentAttempt + 1)
  {
    if st.gameOver || st.track.None? then st
    else
      var correct := sel.id == st.track.value.id;
      var guesses := st.guesses + [GuessEntry(correct, GuessLabel(sel))];
      if correct then st.(guesses := guesses, won := true, gameOver := true)
      else if st.currentAttempt + 1 >= MaxAttempts then st.(guesses := guesses, gameOver := true, won := false)
      else st.(guesses := guesses, currentAttempt := st.currentAttempt + 1)
  }

  /**
   * `SNIPPET_DURATIONS[currentAttempt] || 15`: an index outside the table reads
   * undefined and falls back to 15 seconds.
   */
  function SnippetDuration(attempt: int): (d: int)
    ensures 0 <= attempt < MaxAttempts ==> d == 3 * (attempt + 1)
    ensures !(0 <= attempt < MaxAttempts) ==> d == FallbackDuration
  {
    if 0 <= attempt < |SnippetDurations| then SnippetDurations[attempt] else FallbackDuration
  }

  /**
   * The states the page can reach: the attempt counter is 0..4, one guess per
   * attempt taken plus the final one once the round is over, a loss only on the
   * last attempt, a win is exactly a finished round whose last guess was right,
   * and no earlier guess was right.
   */
  predicate Reachable(st: GuessState) {
    && 0 <= st.currentAttempt < MaxAttempts
    && |st.guesses| == st.currentAttempt + (if st.gameOver then 1 else 0)
    && (st.won ==> st.gameOver)
    && (st.gameOver && !st.won ==> st.currentAttempt == MaxAttempts - 1)
    && (forall i :: 0 <= i < |st.guesses| ==> (st.guesses[i].correct <==> st.won && i == |st.guesses| - 1))
  }

  /** A new round is reachable. */
  lemma NewRoundReachable(track: Option<Spotify.Track>)
    ensures Reachable(NewRound(track))
  {
  }

  /** A guess keeps the page within its reachable states. */
  lemma GuessKeepsReachable(st: GuessState, sel: Suggestion)
    requires Reachable(st)
    ensures Reachable(HandleGuess(st, sel))
  {
    var r := HandleGuess(st, sel);
    if !st.gameOver && st.track.Some? {
      forall i | 0 <= i < |r.guesses|
        ensures r.guesses[i].correct <==> r.won && i == |r.guesses| - 1
      {
        if i < |st.guesses| {
          assert r.guesses[i] == st.guesses[i];
        }
      }
    }
  }

  /**
   * In a reachable state at most five guesses are on record, the round is lost
   * exactly when five wrong guesses are, and every snippet lasts 3..15 seconds,
   * longer for each attempt used.
   */
  lemma ReachableBounds(st: GuessState)
    requires Reachable(st)
    ensures |st.guesses| <= MaxAttempts
    ensures st.gameOver && !st.won <==>
              |st.guesses| == MaxAttempts && forall i :: 0 <= i < |st.guesses| ==> !st.guesses[i].correct
    ensures 3 <= SnippetDuration(st.currentAttempt) <= 15
    ensures SnippetDuration(st.currentAttempt) == 3 * (st.currentAttempt + 1)
  {
    if |st.guesses| == MaxAttempts && forall i :: 0 <= i < |st.guesses| ==> !st.guesses[i].correct {
      assert st.gameOver;
      assert !st.guesses[|st.guesses| - 1].correct;
    }
  }
}

=== FILE: game_over_stats.dfy ===
/**
 * End-of-game bookkeeping of the lobby server (handleGameOverDB in
 * server/src/ws-server.ts): every player with a user id gets one UPDATE of the
 * users table. The table is a map from user id to the four counters; a query that
 * throws ends the loop, since the try block encloses all of it, and the error is
 * swallowed.
 */
module GameOverStats {
  import opened Wrappers
  import opened LobbyState

  /** The per-user counters the UPDATE statement touches. */
  datatype UserStats = UserStats(gamesPlayed: int, gamesWon: int, currentStreak: int, maxStreak: int)

  /** The users table, keyed by user id. */
  type Users = map<int, UserStats>

  /** A new user's row. */
  const NoGames: UserStats := UserStats(0, 0, 0, 0)

  /** Counters that make sense: the streak never exceeds the best streak, wins never exceed games. */
  predicate StatsInv(u: UserStats) {
    0 <= u.currentStreak <= u.maxStreak && 0 <= u.gamesWon <= u.gamesPlayed
  }

  function Max(a: int, b: int): (m: int)
    ensures m >= a && m >= b && (m == a || m == b)
  {
    if a >= b then a else b
  }

  /**
   * The UPDATE statement for one player; every right-hand side reads the old row,
   * as SQL does. A win is `$2 > 0`.
   */
  function RecordGame(u: UserStats, won: bool): (r: UserStats)
    ensures r.gamesPlayed == u.gamesPlayed + 1
    ensures r.gamesWon == u.gamesWon + (if won then 1 else 0)
    ensures StatsInv(u) ==> StatsInv(r)
    ensures won ==> r.currentStreak == u.currentStreak + 1 && r.maxStreak == Max(u.maxStreak, r.currentStreak)
    ensures !won ==> r.currentStreak == 0 && r.maxStreak == u.maxStreak
  {
    UserStats(
      u.gamesPlayed + 1,
      u.gamesWon + (if won then 1 else 0),
      if won then u.currentStreak + 1 else 0,
      Max(u.maxStreak, if won then u.currentStreak + 1 else u.maxStreak))
  }

  /** `p.score === maxScore && p.score > 0`: a stats win needs a positive top score. */
  predicate IsStatsWinner(p: Player, maxScore: int) {
    p.score == maxScore && p.score > 0
  }

  /**
   * A stats win is a place among the announced winners with a positive score:
   * in an all-zero game everybody is announced as a winner and nobody's win
   * counter moves.
   */
  lemma StatsWinnerIsScoringWinner(ps: seq<Player>, p: Player)
    requires p in ps
    ensures IsStatsWinner(p, MaxScore(ps)) <==> p in Winners(ps) && p.score > 0
  {
    TopScoreIsMax(ps, MaxScore(ps));
  }

  /** `if (p.dbId)`: the player has a user id and it is not 0. */
  predicate ReportsTo(p: Player, uid: int) {
    TruthyInt(p.dbId) && p.dbId.value == uid
  }

  /** How many players of `ps` report to user `uid`. */
  function Reports(ps: seq<Player>, uid: int): nat {
    if |ps| == 0 then 0 else (if ReportsTo(ps[0], uid) then 1 else 0) + Reports(ps[1..], uid)
  }

  /** How many players of `ps` report a win to user `uid`. */
  function WinReports(ps: seq<Player>, uid: int, maxScore: int): nat {
    if |ps| == 0 then 0
    else (if ReportsTo(ps[0], uid) && IsStatsWinner(ps[0], maxScore) then 1 else 0) + WinReports(ps[1..], uid, maxScore)
  }

  /** UPDATE ... WHERE user_id = uid: a missing row is left alone. */
  function UpdateUser(users: Users, uid: int, won: bool): Users {
    if uid in users then users[uid := RecordGame(users[uid], won)] else users
  }

  /**
   * The loop over the players. `failAt == Some(k)` means the query issued k-th
   * (0-based) throws: the earlier queries are applied, that one and the rest are not.
   */
  function UpdateAll(users: Users, ps: seq<Player>, maxScore: int, failAt: Option<nat>): (r: Users)
    ensures r.Keys == users.Keys
    ensures forall uid :: uid in users && Reports(ps, uid) == 0 ==> r[uid] == users[uid]
    ensures (forall uid :: uid in users ==> StatsInv(users[uid])) ==> forall uid :: uid in r ==> StatsInv(r[uid])
    ensures failAt == Some(0) ==> r == users
    decreases |ps|
  {
    if |ps| == 0 then users
    else
      var p := ps[0];
      if !TruthyInt(p.dbId) then UpdateAll(users, ps[1..], maxScore, failAt)
      else if failAt == Some(0) then users
      else
        var next := if failAt.Some? then Some(failAt.value - 1) else None;
        UpdateAll(UpdateUser(users, p.dbId.value, IsStatsWinner(p, maxScore)), ps[1..], maxScore, next)
  }

  /**
   * Each user gains at most one game per report; with no failing query, exactly
   * one game per report and one win per winning report.
   */
  lemma {:induction false} UpdateAllCounts(users: Users, ps: seq<Player>, maxScore: int, failAt: Option<nat>, uid: int)
    requires uid in users
    ensures var r := UpdateAll(users, ps, maxScore, failAt);
            users[uid].gamesPlayed <= r[uid].gamesPlayed <= users[uid].gamesPlayed + Reports(ps, uid)
    ensures var r := UpdateAll(users, ps, maxScore, failAt);
            failAt.None? ==>
              && r[uid].gamesPlayed == users[uid].gamesPlayed + Reports(ps, uid)
              && r[uid].gamesWon == users[uid].gamesWon + WinReports(ps, uid, maxScore)
    decreases |ps|
  {
    if |ps| > 0 {
      var p := ps[0];
      if !TruthyInt(p.dbId) {
        UpdateAllCounts(users, ps[1..], maxScore, failAt, uid);
      } else if failAt != Some(0) {
        var next := if failAt.Some? then Some(failAt.value - 1) else None;
        var users' := UpdateUser(users, p.dbId.value, IsStatsWinner(p, maxScore));
        UpdateAllCounts(users', ps[1..], maxScore, next, uid);
      }
    }
  }

  /** handleGameOverDB: the maximum is taken over all players, then each reporting player is updated. */
  function GameOverDB(users: Users, ps: seq<Player>, failAt: Option<nat>): (r: Users)
    ensures r.Keys == users.Keys
    ensures (forall uid :: uid in users ==> StatsInv(users[uid])) ==> forall uid :: uid in r ==> StatsInv(r[uid])
    ensures failAt.None? ==> forall uid :: uid in users ==>
              r[uid].gamesPlayed == users[uid].gamesPlayed + Reports(ps, uid)
    ensures failAt.None? && |ps| > 0 ==> forall uid :: uid in users ==>
              r[uid].gamesWon == users[uid].gamesWon + WinReports(ps, uid, MaxScore(ps))
    ensures forall uid :: uid in users && Reports(ps, uid) == 0 ==> r[uid] == users[uid]
  {
    if |ps| == 0 then users
    else
      var r := UpdateAll(users, ps, MaxScore(ps), failAt);
      assert failAt.None? ==> forall uid :: uid in users ==>
               && r[uid].gamesPlayed == users[uid].gamesPlayed + Reports(ps, uid)
               && r[uid].gamesWon == users[uid].gamesWon + WinReports(ps, uid, MaxScore(ps)) by {
        forall uid | uid in users {
          UpdateAllCounts(users, ps, MaxScore(ps), failAt, uid);
        }
      }
      r
  }

  /**
   * With no failing query, a user reported by exactly one player gets exactly
   * that player's UPDATE: one game, won iff the player holds a positive top score.
   */
  lemma GameOverDBSingleReport(users: Users, ps: seq<Player>, uid: int, i: nat)
    requires uid in users && i < |ps| && ReportsTo(ps[i], uid) && Reports(ps, uid) == 1
    ensures GameOverDB(users, ps, None)[uid] == RecordGame(users[uid], IsStatsWinner(ps[i], MaxScore(ps)))
  {
    UpdateAllSingleReport(users, ps, MaxScore(ps), uid, i);
  }

  /** The loop applies the one report of a user, and nothing else, to that user's row. */
  lemma {:induction false} UpdateAllSingleReport(users: Users, ps: seq<Player>, maxScore: int, uid: int, i: nat)
    requires uid in users && i < |ps| && ReportsTo(ps[i], uid) && Reports(ps, uid) == 1
    ensures UpdateAll(users, ps, maxScore, None)[uid] == RecordGame(users[uid], IsStatsWinner(ps[i], maxScore))
    decreases |ps|
  {
    var p := ps[0];
    if i == 0 {
      var users' := UpdateUser(users, uid, IsStatsWinner(p, maxScore));
      assert Reports(ps[1..], uid) == 0;
    } else {
      ReportsAt(ps[1..], uid, i - 1);
      assert !ReportsTo(p, uid);
      if TruthyInt(p.dbId) {
        var users' := UpdateUser(users, p.dbId.value, IsStatsWinner(p, maxScore));
        assert users'[uid] == users[uid];
        UpdateAllSingleReport(users', ps[1..], maxScore, uid, i - 1);
      } else {
        UpdateAllSingleReport(users, ps[1..], maxScore, uid, i - 1);
      }
    }
  }

  /** A player that reports to a user is counted among that user's reports. */
  lemma {:induction false} ReportsAt(ps: seq<Player>, uid: int, i: nat)
    requires i < |ps| && ReportsTo(ps[i], uid)
    ensures Reports(ps, uid) >= 1
    decreases |ps|
  {
    if i > 0 {
      ReportsAt(ps[1..], uid, i - 1);
    }
  }

  /**
   * A user who played one game with a top score of zero gets no win, however the
   * tie is broken: the stats win is stricter than the winners list.
   */
  lemma ZeroScoreGameWinsNothing(users: Users, ps: seq<Player>, uid: int)
    requires |ps| > 0 && uid in users
    requires forall i :: 0 <= i < |ps| ==> ps[i].score == 0
    ensures GameOverDB(users, ps, None)[uid].gamesWon == users[uid].gamesWon
  {
    NoWinReports(ps, uid, MaxScore(ps));
    UpdateAllCounts(users, ps, MaxScore(ps), None, uid);
  }

  lemma {:induction false} NoWinReports(ps: seq<Player>, uid: int, m: int)
    requires forall i :: 0 <= i < |ps| ==> ps[i].score == 0
    ensures WinReports(ps, uid, m) == 0
    decreases |ps|
  {
    if |ps| > 0 {
      NoWinReports(ps[1..], uid, m);
    }
  }

  // ---------------------------------------------------------------------------
  // What the streak counters mean
  // ---------------------------------------------------------------------------

  /** The row of a user who started with no games and then had these results, oldest first. */
  function Replay(results: seq<bool>): UserStats
    decreases |results|
  {
    if |results| == 0 then NoGames
    else RecordGame(Replay(results[..|results| - 1]), results[|results| - 1])
  }

  /** Every result in the window is a win. */
  predicate AllWins(window: seq<bool>) {
    forall k :: 0 <= k < |window| ==> window[k]
  }

  /** The `len` results starting at index `i` exist and are all wins. */
  predicate WinRunAt(results: seq<bool>, i: int, len: int) {
    0 <= i && 0 <= len && i + len <= |results| && AllWins(results[i..i + len])
  }

  /** `c` is the length of the final run of wins in `results`. */
  predicate FinalRun(results: seq<bool>, c: int) {
    && 0 <= c <= |results|
    && AllWins(results[|results| - c..])
    && (c < |results| ==> !results[|results| - c - 1])
  }

  /** No run of wins in `results` is longer than `m`. */
  predicate RunsAtMost(results: seq<bool>, m: int) {
    forall i, j :: 0 <= i <= j <= |results| && AllWins(results[i..j]) ==> j - i <= m
  }

  /** Replaying a history keeps the row consistent and counts one game per result. */
  lemma {:induction false} ReplayCounts(results: seq<bool>)
    ensures StatsInv(Replay(results))
    ensures Replay(results).gamesPlayed == |results|
    decreases |results|
  {
    if |results| > 0 {
      ReplayCounts(results[..|results| - 1]);
    }
  }

  /** After any history, `current_streak` is the length of the final run of wins. */
  lemma {:induction false} CurrentStreakIsFinalRun(results: seq<bool>)
    ensures StatsInv(Replay(results))
    ensures Replay(results).gamesPlayed == |results|
    ensures FinalRun(results, Replay(results).currentStreak)
    decreases |results|
  {
    ReplayCounts(results);
    if |results| > 0 {
      var pre := results[..|results| - 1];
      var c := Replay(pre).currentStreak;
      var last := results[|results| - 1];
      assert FinalRun(results, if last then c + 1 else 0) by {
        CurrentStreakIsFinalRun(pre);
        FinalRunStep(results, c);
      }
      assert Replay(results).currentStreak == if last then c + 1 else 0 by {
        assert Replay(results) == RecordGame(Replay(pre), last);
      }
    }
  }

  /** One more result: a win extends the final run by one, a loss ends it. */
  lemma FinalRunStep(results: seq<bool>, c: int)
    requires |results| > 0 && FinalRun(results[..|results| - 1], c)
    ensures FinalRun(results, if results[|results| - 1] then c + 1 else 0)
  {
    var n := |results|;
    var pre := results[..n - 1];
    if results[n - 1] {
      assert results[n - (c + 1)..] == pre[n - 1 - c..] + [true];
      if c + 1 < n {
        assert results[n - (c + 1) - 1] == pre[n - 1 - c - 1];
      }
    } else {
      assert AllWins(results[n..]);
    }
  }

  /** A window that contains a loss is not a run of wins. */
  lemma WindowWithLoss(results: seq<bool>, i: int, j: int, p: int)
    requires 0 <= i <= p < j <= |results| && !results[p]
    ensures !AllWins(results[i..j])
  {
    assert results[i..j][p - i] == results[p];
  }

  /** A run of wins reaching the end of the history is no longer than the final run. */
  lemma WinningSuffixFitsFinalRun(results: seq<bool>, c: int, i: int)
    requires FinalRun(results, c) && 0 <= i <= |results| && AllWins(results[i..])
    ensures |results| - i <= c
  {
    var n := |results|;
    assert results[i..n] == results[i..];
    if c < n && i <= n - c - 1 {
      WindowWithLoss(results, i, n, n - c - 1);
    }
  }

  /** After any history, no run of wins is longer than `max_streak`. */
  lemma {:induction false} MaxStreakBoundsEveryRun(results: seq<bool>)
    ensures RunsAtMost(results, Replay(results).maxStreak)
    decreases |results|
  {
    if |results| > 0 {
      var pre := results[..|results| - 1];
      var v, last := Replay(pre), results[|results| - 1];
      var m := Replay(results).maxStreak;
      assert m >= v.maxStreak && (last ==> m >= v.currentStreak + 1) by {
        assert Replay(results) == RecordGame(v, last);
      }
      assert RunsAtMost(pre, v.maxStreak) && FinalRun(pre, v.currentStreak) by {
        MaxStreakBoundsEveryRun(pre);
        CurrentStreakIsFinalRun(pre);
      }
      RunsAtMostStep(results, v.maxStreak, v.currentStreak, m);
    }
  }

  /**
   * One more result: a bound on the earlier runs that also covers the final run
   * extended by a win bounds every run of the longer history.
   */
  lemma RunsAtMostStep(results: seq<bool>, m: int, c: int, m': int)
    requires |results| > 0
    requires RunsAtMost(results[..|results| - 1], m) && FinalRun(results[..|results| - 1], c)
    requires m' >= m && (results[|results| - 1] ==> m' >= c + 1)
    ensures RunsAtMost(results, m')
  {
    var n := |results|;
    var pre := results[..n - 1];
    forall i, j | 0 <= i <= j <= n && AllWins(results[i..j])
      ensures j - i <= m'
    {
      if j < n {
        assert results[i..j] == pre[i..j];
        assert AllWins(pre[i..j]);
      } else if i < j {
        assert results[n - 1] == results[i..j][j - 1 - i];
        assert results[i..j][..n - 1 - i] == pre[i..];
        WinningSuffixFitsFinalRun(pre, c, i);
      } else {
        assert AllWins(pre[0..0]);
      }
    }
  }

  /** A run of wins before the last result is a run of the whole history. */
  lemma WinRunInPrefix(results: seq<bool>, i: int, len: int)
    requires |results| > 0 && WinRunAt(results[..|results| - 1], i, len)
    ensures WinRunAt(results, i, len)
  {
    assert results[i..i + len] == results[..|results| - 1][i..i + len];
  }

  /** The final run of wins is a run of wins. */
  lemma FinalRunIsWinRun(results: seq<bool>, c: int)
    requires FinalRun(results, c)
    ensures WinRunAt(results, |results| - c, c)
  {
    assert results[|results| - c..|results|] == results[|results| - c..];
  }

  /** After any history, some run of wins is exactly `max_streak` long. */
  lemma {:induction false} MaxStreakIsAchieved(results: seq<bool>)
    ensures exists i :: WinRunAt(results, i, Replay(results).maxStreak)
    decreases |results|
  {
    if |results| == 0 {
      assert Replay(results) == NoGames;
      assert WinRunAt(results, 0, 0);
    } else {
      var n := |results|;
      var pre := results[..n - 1];
      MaxStreakIsAchieved(pre);
      CurrentStreakIsFinalRun(pre);
      CurrentStreakIsFinalRun(results);
      var v := Replay(pre);
      var u := Replay(results);
      assert u == RecordGame(v, results[n - 1]);
      var i0 :| WinRunAt(pre, i0, v.maxStreak);
      if !results[n - 1] || v.currentStreak + 1 <= v.maxStreak {
        assert u.maxStreak == v.maxStreak;
        WinRunInPrefix(results, i0, u.maxStreak);
      } else {
        assert u.maxStreak == u.currentStreak;
        FinalRunIsWinRun(results, u.currentStreak);
      }
    }
  }
}

=== FILE: legacy_lobby_server.dfy ===
/**
 * The earlier lobby server (server/ws-server.ts): join, start a game with one
 * fetched track, and leave. It keeps no rounds, scores or stats, never checks a
 * player id for duplicates and never promotes a new host.
 */
module LegacyLobbyServer {
  import opened Wrappers
  import opened Seqs
  import opened Outbox
  import Spotify

  /** A player as this server keeps it: no round state. */
  datatype Player = Player(id: string, name: string, score: int, isHost: bool)

  /** A lobby: its sockets, its players and the id of the track last started. */
  datatype Lobby = Lobby(clients: seq<SocketId>, players: seq<Player>, currentTrackId: Option<string>)

  /** Outbound messages. */
  datatype Message =
    | UpdatePlayers(players: seq<Player>)
    | StartRound(track: Spotify.Track)
    | Error(message: string)

  /** The `lobbies` table, the connection's variables after a handler, and what it sent. */
  datatype Step = Step(lobbies: map<string, Lobby>, conn: Connection, out: seq<Delivery<Message>>)

  /**
   * What the HTTP request for a random track gave: it threw or answered with a
   * non-OK status, or it answered with a body that is a track or nothing.
   */
  datatype TrackFetch = FetchFailed | FetchBody(track: Option<Spotify.Track>)

  const LoadFailedMessage: string := "Failed to load song."

  /** The lobby a first join creates. */
  const EmptyLobby: Lobby := Lobby([], [], None)

  /** broadcastToLobby: nothing for a missing lobby, otherwise `m` to each open client. */
  function Broadcast(lobbies: map<string, Lobby>, lobbyId: string, open: set<SocketId>, m: Message): (out: seq<Delivery<Message>>)
    ensures lobbyId !in lobbies ==> out == []
    ensures lobbyId in lobbies ==> DeliveredToOpen(out, lobbies[lobbyId].clients, open, m)
  {
    if lobbyId in lobbies then SendToOpen(lobbies[lobbyId].clients, open, m) else []
  }

  /** How many players of `ps` carry the id. */
  function CountId(ps: seq<Player>, id: string): nat {
    if |ps| == 0 then 0 else (if ps[0].id == id then 1 else 0) + CountId(ps[1..], id)
  }

  /** `players.filter(p => p.id !== id)`. */
  function WithoutPlayer(ps: seq<Player>, id: string): (r: seq<Player>)
    ensures forall p :: p in r <==> p in ps && p.id != id
    ensures |r| == |ps| - CountId(ps, id)
    ensures CountId(ps, id) == 0 ==> r == ps
  {
    if |ps| == 0 then []
    else if ps[0].id == id then WithoutPlayer(ps[1..], id)
    else [ps[0]] + WithoutPlayer(ps[1..], id)
  }

  /**
   * The player filter works player by player and keeps the join order, so it
   * splits over a concatenation.
   */
  lemma {:induction false} WithoutPlayerConcat(ps: seq<Player>, qs: seq<Player>, id: string)
    ensures WithoutPlayer(ps + qs, id) == WithoutPlayer(ps, id) + WithoutPlayer(qs, id)
    decreases |ps|
  {
    if |ps| == 0 {
      assert ps + qs == qs;
    } else {
      var h, rest := ps[0], ps[1..];
      SplitHead(ps, qs);
      WithoutPlayerCons(h, rest + qs, id);
      WithoutPlayerCons(h, rest, id);
      WithoutPlayerConcat(rest, qs, id);
      if h.id != id {
        ConsAssociates(h, WithoutPlayer(rest, id), WithoutPlayer(qs, id));
      }
    }
  }

  /** One step of the player filter: the head goes exactly when it carries the id. */
  lemma WithoutPlayerCons(h: Player, ps: seq<Player>, id: string)
    ensures WithoutPlayer([h] + ps, id) == if h.id == id then WithoutPlayer(ps, id) else [h] + WithoutPlayer(ps, id)
  {
    assert ([h] + ps)[0] == h && ([h] + ps)[1..] == ps;
  }

  /**
   * joinLobby with the random id `freshId`: create the lobby if missing, append the
   * socket and the player unconditionally, and broadcast the player list.
   */
  function JoinLobby(lobbies: map<string, Lobby>, c: Connection, lobbyId: string, name: string,
                     isHost: bool, freshId: string, open: set<SocketId>): (r: Step)
    ensures r.conn == c.(lobbyId := Some(lobbyId), playerId := Some(freshId))
    ensures lobbyId in r.lobbies
    ensures r.lobbies == lobbies[lobbyId := r.lobbies[lobbyId]]
    ensures var before := if lobbyId in lobbies then lobbies[lobbyId] else EmptyLobby;
            var after := r.lobbies[lobbyId];
            && after.clients == before.clients + [c.socket]
            && after.players == before.players + [Player(freshId, name, 0, isHost)]
            && after.currentTrackId == before.currentTrackId
            && DeliveredToOpen(r.out, after.clients, open, UpdatePlayers(after.players))
  {
    var before := if lobbyId in lobbies then lobbies[lobbyId] else EmptyLobby;
    var after := before.(clients := before.clients + [c.socket],
                         players := before.players + [Player(freshId, name, 0, isHost)]);
    var lobbies' := lobbies[lobbyId := after];
    Step(lobbies', c.(lobbyId := Some(lobbyId), playerId := Some(freshId)),
         Broadcast(lobbies', lobbyId, open, UpdatePlayers(after.players)))
  }

  /** The fetched body is usable: a track whose id is a non-empty string. */
  predicate UsableBody(fetch: TrackFetch) {
    fetch.FetchBody? && fetch.track.Some? && fetch.track.value.id != ""
  }

  /**
   * startGame: nothing for a missing lobby; a failed request or an unusable body
   * broadcasts the load error and changes nothing; otherwise the track id is
   * stored and the track goes to the lobby.
   */
  function StartGame(lobbies: map<string, Lobby>, lobbyId: string, fetch: TrackFetch,
                     open: set<SocketId>): (r: (map<string, Lobby>, seq<Delivery<Message>>))
    ensures lobbyId !in lobbies ==> r == (lobbies, [])
    ensures lobbyId in lobbies && !UsableBody(fetch) ==>
              r.0 == lobbies && DeliveredToOpen(r.1, lobbies[lobbyId].clients, open, Error(LoadFailedMessage))
    ensures lobbyId in lobbies && UsableBody(fetch) ==>
              var t := fetch.track.value;
              && r.0 == lobbies[lobbyId := lobbies[lobbyId].(currentTrackId := Some(t.id))]
              && DeliveredToOpen(r.1, lobbies[lobbyId].clients, open, StartRound(t))
  {
    if lobbyId !in lobbies then (lobbies, [])
    else if !UsableBody(fetch) then
      (lobbies, Broadcast(lobbies, lobbyId, open, Error(LoadFailedMessage)))
    else
      var t := fetch.track.value;
      var lobbies' := lobbies[lobbyId := lobbies[lobbyId].(currentTrackId := Some(t.id))];
      (lobbies', Broadcast(lobbies', lobbyId, open, StartRound(t)))
  }

  /**
   * The close handler: nothing unless the connection joined a lobby that still
   * exists; otherwise drop its socket and every player with its id, then delete
   * the lobby if no socket remains or broadcast the remaining players.
   */
  function Close(lobbies: map<string, Lobby>, c: Connection, open: set<SocketId>): (r: (map<string, Lobby>, seq<Delivery<Message>>))
    ensures !HasJoined(c) || c.lobbyId.value !in lobbies ==> r == (lobbies, [])
    ensures HasJoined(c) && c.lobbyId.value in lobbies ==>
              var lobbyId := c.lobbyId.value;
              var l := lobbies[lobbyId];
              var clients := Without(l.clients, c.socket);
              && (|clients| == 0 ==> r == (lobbies - {lobbyId}, []))
              && (|clients| > 0 ==>
                    var l' := Lobby(clients, WithoutPlayer(l.players, c.playerId.value), l.currentTrackId);
                    && r.0 == lobbies[lobbyId := l']
                    && DeliveredToOpen(r.1, clients, open, UpdatePlayers(l'.players)))
  {
    if !HasJoined(c) || c.lobbyId.value !in lobbies then (lobbies, [])
    else
      var lobbyId := c.lobbyId.value;
      var l := lobbies[lobbyId];
      var clients := Without(l.clients, c.socket);
      if |clients| == 0 then (lobbies - {lobbyId}, [])
      else
        var l' := l.(clients := clients, players := WithoutPlayer(l.players, c.playerId.value));
        var lobbies' := lobbies[lobbyId := l'];
        (lobbies', Broadcast(lobbies', lobbyId, open, UpdatePlayers(l'.players)))
  }

  /** The inbound envelopes this server acts on; any other type is ignored. */
  datatype Inbound =
    | JoinLobbyMsg(lobbyId: string, name: string, isHost: bool)
    | StartGameMsg(lobbyId: string)
    | UnrecognisedMsg

  /** The `message` handler of one connection. */
  function HandleMessage(lobbies: map<string, Lobby>, c: Connection, m: Inbound, freshId: string,
                         fetch: TrackFetch, open: set<SocketId>): (r: Step)
    ensures !m.JoinLobbyMsg? ==> r.conn == c
    ensures m.UnrecognisedMsg? ==> r == Step(lobbies, c, [])
    ensures m.StartGameMsg? ==> r.lobbies.Keys == lobbies.Keys
  {
    match m
    case JoinLobbyMsg(lobbyId, name, isHost) => JoinLobby(lobbies, c, lobbyId, name, isHost, freshId, open)
    case StartGameMsg(lobbyId) =>
      var (lobbies', out) := StartGame(lobbies, lobbyId, fetch, open);
      Step(lobbies', c, out)
    case UnrecognisedMsg => Step(lobbies, c, [])
  }

  // ---------------------------------------------------------------------------
  // Properties across handlers
  // ---------------------------------------------------------------------------

  /** Each socket of a lobby pairs with the player at the same position. */
  predicate Lockstep(l: Lobby) {
    |l.clients| == |l.players|
  }

  /** A join keeps sockets and players in lockstep: it always pushes one of each. */
  lemma JoinKeepsLockstep(lobbies: map<string, Lobby>, c: Connection, lobbyId: string, name: string,
                          isHost: bool, freshId: string, open: set<SocketId>)
    requires lobbyId in lobbies ==> Lockstep(lobbies[lobbyId])
    ensures Lockstep(JoinLobby(lobbies, c, lobbyId, name, isHost, freshId, open).lobbies[lobbyId])
  {
  }

  /** Leaving never hands the host flag on: the remaining players are kept as they were. */
  lemma CloseNeverPromotes(lobbies: map<string, Lobby>, c: Connection, open: set<SocketId>)
    requires HasJoined(c) && c.lobbyId.value in lobbies
    requires c.lobbyId.value in Close(lobbies, c, open).0
    ensures forall p :: p in Close(lobbies, c, open).0[c.lobbyId.value].players ==>
              p in lobbies[c.lobbyId.value].players
  {
  }

  /**
   * A fresh connection that joins and then leaves gives the lobby table back
   * unchanged: the new lobby is deleted again, or the pushed socket and player
   * are filtered out of a lobby that other sockets keep alive.
   */
  lemma {:induction false} JoinThenCloseRestores(lobbies: map<string, Lobby>, c: Connection, lobbyId: string,
                                                 name: string, isHost: bool, freshId: string, open: set<SocketId>)
    requires lobbyId != "" && freshId != ""
    requires lobbyId in lobbies ==>
               var l := lobbies[lobbyId];
               && c.socket !in l.clients && |l.clients| > 0
               && forall p :: p in l.players ==> p.id != freshId
    ensures var j := JoinLobby(lobbies, c, lobbyId, name, isHost, freshId, open);
            Close(j.lobbies, j.conn, open).0 == lobbies
  {
    var j := JoinLobby(lobbies, c, lobbyId, name, isHost, freshId, open);
    var after := j.lobbies[lobbyId];
    assert HasJoined(j.conn);
    if lobbyId in lobbies {
      var l := lobbies[lobbyId];
      WithoutAppended(l.clients, c.socket);
      PlayerAppendedThenRemoved(l.players, Player(freshId, name, 0, isHost));
      assert |Without(after.clients, c.socket)| > 0;
      assert Lobby(l.clients, l.players, l.currentTrackId) == l;
      MapRestored(lobbies, lobbyId, after);
    } else {
      assert after.clients == [c.socket];
      assert Without(after.clients, c.socket) == [];
      MapAddedThenRemoved(lobbies, lobbyId, after);
    }
  }

  /** Filtering out the id of a player appended to a list without that id gives the list back. */
  lemma {:induction false} PlayerAppendedThenRemoved(ps: seq<Player>, p: Player)
    requires forall q :: q in ps ==> q.id != p.id
    ensures WithoutPlayer(ps + [p], p.id) == ps
    decreases |ps|
  {
    if |ps| > 0 {
      assert (ps + [p])[1..] == ps[1..] + [p];
      PlayerAppendedThenRemoved(ps[1..], p);
    }
  }

  /**
   * As written, joining twice on one socket pushes the socket twice, and closing
   * it removes both copies but only the second join's player: the first player
   * stays in the list with no socket behind it.
   */
  lemma RejoinLeavesStalePlayer(lobbies: map<string, Lobby>, c: Connection, lobbyId: string,
                                name: string, id1: string, id2: string, open: set<SocketId>)
    requires lobbyId != "" && id1 != "" && id2 != "" && id1 != id2
    requires lobbyId in lobbies && |lobbies[lobbyId].clients| > 0 && c.socket !in lobbies[lobbyId].clients
    ensures var j1 := JoinLobby(lobbies, c, lobbyId, name, false, id1, open);
            var j2 := JoinLobby(j1.lobbies, j1.conn, lobbyId, name, false, id2, open);
            var closed := Close(j2.lobbies, j2.conn, open).0;
            lobbyId in closed &&
            Player(id1, name, 0, false) in closed[lobbyId].players &&
            c.socket !in closed[lobbyId].clients
  {
    var j1 := JoinLobby(lobbies, c, lobbyId, name, false, id1, open);
    var j2 := JoinLobby(j1.lobbies, j1.conn, lobbyId, name, false, id2, open);
    var l2 := j2.lobbies[lobbyId];
    assert HasJoined(j2.conn);
    var p1 := Player(id1, name, 0, false);
    assert p1 in l2.players by {
      assert l2.players[|l2.players| - 2] == p1;
    }
    var x := lobbies[lobbyId].clients[0];
    assert x in l2.clients && x != c.socket;
    assert x in Without(l2.clients, c.socket);
  }
}

=== FILE: lobby_page.dfy ===
/**
 * The client side of a multiplayer lobby (client/src/pages/MultiplayerLobby.tsx):
 * the join request it sends, how it reacts to the server's messages, the host's
 * start request, the per-round guessing it shares with the daily page, and the
 * keys it renders the player list with.
 */
module LobbyPage {
  import opened Wrappers
  import Spotify
  import DailyGame

  /** A player as the page receives it. */
  datatype PlayerView = PlayerView(id: string, name: string, score: int, isHost: bool)

  /** The lobby part of the page's state, and the round it is playing. */
  datatype PageState = PageState(
    players: seq<PlayerView>,
    gameStarted: bool,
    error: Option<string>,
    loading: bool,
    game: DailyGame.GuessState)

  /** The state on mount. */
  const InitialPage: PageState := PageState([], false, None, false, DailyGame.NewRound(None))

  /** The server messages the page reads, already parsed; absent payload fields are `None`. */
  datatype ServerMessage =
    | UpdatePlayersMsg(players: Option<seq<PlayerView>>)
    | StartRoundMsg(track: Option<Spotify.Track>)
    | ErrorMsg(message: Option<string>)
    | OtherMsg

  /** What the page sends. */
  datatype Request =
    | JoinRequest(lobbyId: Option<string>, name: string, isHost: bool)
    | StartGameRequest(lobbyId: Option<string>)

  const AnonymousName: string := "Anonymous"
  const ServerErrorMessage: string := "Server error"

  /**
   * The join sent when the socket opens: the `name` query parameter, or
   * "Anonymous" when it is missing or empty, and host only for `host=true`.
   */
  function JoinRequestFor(lobbyId: Option<string>, nameParam: Option<string>, hostParam: Option<string>): (r: Request)
    ensures r.JoinRequest? && r.lobbyId == lobbyId
    ensures r.name != ""
    ensures Truthy(nameParam) ==> r.name == nameParam.value
    ensures !Truthy(nameParam) ==> r.name == AnonymousName
    ensures r.isHost <==> hostParam == Some("true")
  {
    JoinRequest(lobbyId, if Truthy(nameParam) then nameParam.value else AnonymousName, hostParam == Some("true"))
  }

  /** loadGameTrack: a fresh round on the track the server sent, no longer loading. */
  function LoadGameTrack(ps: PageState, t: Spotify.Track): (r: PageState)
    ensures r.game == DailyGame.NewRound(Some(t))
    ensures !r.loading
    ensures (r.players, r.gameStarted, r.error) == (ps.players, ps.gameStarted, ps.error)
  {
    ps.(game := DailyGame.NewRound(Some(t)), loading := false)
  }

  /**
   * onmessage: a player list replaces the shown one (an absent list shows none);
   * a round with a track starts the game and a fresh round; an error shows its
   * message or "Server error"; anything else changes nothing.
   */
  function OnMessage(ps: PageState, m: ServerMessage): (r: PageState)
    ensures m.UpdatePlayersMsg? ==>
              r == ps.(players := if m.players.Some? then m.players.value else [])
    ensures m.StartRoundMsg? && m.track.Some? ==>
              r.gameStarted && r.game == DailyGame.NewRound(m.track) && r.players == ps.players && r.error == ps.error
    ensures m.StartRoundMsg? && m.track.Some? ==>
              r == ps.(gameStarted := true, loading := false, game := DailyGame.NewRound(m.track))
    ensures m.StartRoundMsg? && m.track.None? ==> r == ps
    ensures m.ErrorMsg? ==>
              r.error.Some? && r.error.value != "" && r.players == ps.players && r.game == ps.game &&
              (Truthy(m.message) ==> r.error == m.message)
    ensures m.ErrorMsg? ==>
              r == ps.(error := Some(if Truthy(m.message) then m.message.value else ServerErrorMessage))
    ensures m.OtherMsg? ==> r == ps
  {
    match m
    case UpdatePlayersMsg(players) => ps.(players := if players.Some? then players.value else [])
    case StartRoundMsg(track) =>
      if track.Some? then LoadGameTrack(ps.(gameStarted := true), track.value) else ps
    case ErrorMsg(message) =>
      ps.(error := Some(if Truthy(message) then message.value else ServerErrorMessage))
    case OtherMsg => ps
  }

  /** handleGuess: the daily page's guess rule applied to the page's round. */
  function HandleGuess(ps: PageState, sel: DailyGame.Suggestion): (r: PageState)
    ensures r.game == DailyGame.HandleGuess(ps.game, sel)
    ensures (r.players, r.gameStarted, r.error, r.loading) == (ps.players, ps.gameStarted, ps.error, ps.loading)
  {
    ps.(game := DailyGame.HandleGuess(ps.game, sel))
  }

  /** startGame: a request only from a host whose socket is still referenced. */
  function StartGame(isHost: bool, connected: bool, lobbyId: Option<string>): (r: Option<Request>)
    ensures r.Some? <==> isHost && connected
    ensures r.Some? ==> r.value == StartGameRequest(lobbyId)
  {
    if isHost && connected then Some(StartGameRequest(lobbyId)) else None
  }

  /** Every message keeps the page's round within the daily game's reachable states. */
  lemma MessagesKeepRoundReachable(ps: PageState, m: ServerMessage)
    requires DailyGame.Reachable(ps.game)
    ensures DailyGame.Reachable(OnMessage(ps, m).game)
  {
    if m.StartRoundMsg? && m.track.Some? {
      DailyGame.NewRoundReachable(m.track);
    }
  }

  // ---------------------------------------------------------------------------
  // Player keys
  // ---------------------------------------------------------------------------

  /** The decimal digit for 0..9. */
  function Digit(d: nat): (c: char)
    requires d < 10
    ensures '0' <= c <= '9'
    ensures c as int - '0' as int == d
  {
    ('0' as int + d) as char
  }

  /** `String(n)` for a non-negative integer: its decimal digits, no leading zeros. */
  function NatToString(n: nat): (s: string)
    ensures |s| >= 1
    ensures forall i :: 0 <= i < |s| ==> '0' <= s[i] <= '9'
    ensures n < 10 <==> |s| == 1
  {
    if n < 10 then [Digit(n)] else NatToString(n / 10) + [Digit(n % 10)]
  }

  /** The number a string of decimal digits denotes, most significant digit first. */
  function DecimalValue(s: string): int {
    if |s| == 0 then 0 else 10 * DecimalValue(s[..|s| - 1]) + (s[|s| - 1] as int - '0' as int)
  }

  /** Printing a number and reading the digits back gives the number. */
  lemma {:induction false} NatToStringRoundTrip(n: nat)
    ensures DecimalValue(NatToString(n)) == n
    decreases n
  {
    var s := NatToString(n);
    if n < 10 {
      assert s[..0] == [];
    } else {
      assert s[..|s| - 1] == NatToString(n / 10);
      NatToStringRoundTrip(n / 10);
    }
  }

  /** Distinct numbers print differently. */
  lemma NatToStringInjective(n: nat, m: nat)
    requires NatToString(n) == NatToString(m)
    ensures n == m
  {
    NatToStringRoundTrip(n);
    NatToStringRoundTrip(m);
  }

  /** getPlayerKey: the player's id, or "<name>-<index>" when the id is empty. */
  function PlayerKey(p: PlayerView, index: nat): (k: string)
    ensures p.id != "" ==> k == p.id
    ensures p.id == "" ==> |k| > |p.name| + 1 && k[..|p.name|] == p.name && k[|p.name|] == '-'
    ensures p.id == "" ==> k[|p.name| + 1..] == NatToString(index) && DecimalValue(k[|p.name| + 1..]) == index
  {
    if p.id != "" then p.id
    else
      var k := p.name + "-" + NatToString(index);
      assert k[|p.name| + 1..] == NatToString(index);
      NatToStringRoundTrip(index);
      k
  }

  /** The position of the last '-' in `s`, if any. */
  function LastDash(s: string): (r: Option<nat>)
    ensures r.Some? ==> r.value < |s| && s[r.value] == '-' &&
                        forall j :: r.value < j < |s| ==> s[j] != '-'
  {
    if |s| == 0 then None
    else if s[|s| - 1] == '-' then Some(|s| - 1)
    else LastDash(s[..|s| - 1])
  }

  /** In "<name>-<digits>" the last dash is the one after the name. */
  lemma {:induction false} LastDashOfFallbackKey(name: string, ds: string)
    requires forall j :: 0 <= j < |ds| ==> '0' <= ds[j] <= '9'
    ensures LastDash(name + "-" + ds) == Some(|name|)
    decreases |ds|
  {
    var k := name + "-" + ds;
    if |ds| > 0 {
      assert k[..|k| - 1] == name + "-" + ds[..|ds| - 1];
      LastDashOfFallbackKey(name, ds[..|ds| - 1]);
    }
  }

  /** "<name>-<digits>" splits back into its name and its digits. */
  lemma FallbackKeySplits(name1: string, d1: string, name2: string, d2: string)
    requires forall j :: 0 <= j < |d1| ==> '0' <= d1[j] <= '9'
    requires forall j :: 0 <= j < |d2| ==> '0' <= d2[j] <= '9'
    requires name1 + "-" + d1 == name2 + "-" + d2
    ensures name1 == name2 && d1 == d2
  {
    var k := name1 + "-" + d1;
    LastDashOfFallbackKey(name1, d1);
    LastDashOfFallbackKey(name2, d2);
    assert |name1| == |name2|;
    assert name1 == k[..|name1|] && name2 == k[..|name2|];
    assert d1 == k[|name1| + 1..] && d2 == k[|name2| + 1..];
  }

  /**
   * A fallback key determines the player's name and position: the digits after
   * the last dash are the index and what precedes that dash is the name, so two
   * players without an id share a key only if both name and position agree.
   */
  lemma FallbackKeyDetermines(p: PlayerView, i: nat, q: PlayerView, j: nat)
    requires p.id == "" && q.id == ""
    ensures PlayerKey(p, i) == PlayerKey(q, j) <==> p.name == q.name && i == j
  {
    if PlayerKey(p, i) == PlayerKey(q, j) {
      FallbackKeySplits(p.name, NatToString(i), q.name, NatToString(j));
      NatToStringInjective(i, j);
    }
  }
}

=== FILE: lobby_server.dfy ===
/**
 * The WebSocket handlers of the multiplayer lobby server (server/src/ws-server.ts),
 * each as one atomic transition of the lobby table. Whatever a handler learns from
 * outside arrives as a parameter: the random player id, what the track fetch
 * produced, which stats query (if any) throws, and which sockets are open.
 * Messages sent are returned as an outbox, in sending order.
 */
module LobbyServer {
  import opened Wrappers
  import opened Seqs
  import opened Outbox
  import opened LobbyState
  import opened GameOverStats
  import Spotify

  /** Outbound messages; player lists are serialised as they stand when sent. */
  datatype Message =
    | JoinedLobby(yourId: string, players: seq<Player>)
    | UpdatePlayers(players: seq<Player>)
    | StartRound(track: Spotify.Track, players: seq<Player>, round: int)
    | RoundOver(players: seq<Player>)
    | GameOver(winners: seq<Player>, players: seq<Player>)
    | Error(message: string)
    | Pong

  /** The `lobbies` table, and the users table the game-over path writes to. */
  datatype Server = Server(lobbies: map<string, Lobby>, users: Users)

  /** The state after a handler, the connection's variables after it, and what it sent. */
  datatype Step = Step(server: Server, conn: Connection, out: seq<Delivery<Message>>)

  /** The state after a handler that leaves the connection's variables alone, and what it sent. */
  datatype Effect = Effect(server: Server, out: seq<Delivery<Message>>)

  /** What `await getRandomTrack()` did: threw, or resolved to a track or to nothing. */
  datatype FetchResult = FetchThrew | FetchReturned(track: Option<Spotify.Track>)

  const LoadFailedMessage: string := "Failed to load song"
  const InvalidTrackMessage: string := "Fetched song data is invalid"

  /** The lobby under `lobbyId`, or the one a first join would create. */
  function LobbyOrEmpty(lobbies: map<string, Lobby>, lobbyId: string): Lobby {
    if lobbyId in lobbies then lobbies[lobbyId] else EmptyLobby
  }

  // ---------------------------------------------------------------------------
  // Broadcast
  // ---------------------------------------------------------------------------

  /** broadcastToLobby: nothing for a missing lobby, otherwise `m` to each open client. */
  function Broadcast(lobbies: map<string, Lobby>, lobbyId: string, open: set<SocketId>, m: Message): (out: seq<Delivery<Message>>)
    ensures lobbyId !in lobbies ==> out == []
    ensures lobbyId in lobbies ==> DeliveredToOpen(out, lobbies[lobbyId].clients, open, m)
  {
    if lobbyId in lobbies then SendToOpen(lobbies[lobbyId].clients, open, m) else []
  }

  /** `out` is `m` delivered to exactly the open clients of `l`. */
  ghost predicate BroadcastOf(out: seq<Delivery<Message>>, l: Lobby, open: set<SocketId>, m: Message) {
    DeliveredToOpen(out, l.clients, open, m)
  }

  // ---------------------------------------------------------------------------
  // joinLobby
  // ---------------------------------------------------------------------------

  /**
   * joinLobby with the random id `freshId`: create the lobby if missing, append the
   * player and the socket unless a player already has that id, answer the joiner
   * and broadcast the player list.
   */
  function JoinLobby(s: Server, c: Connection, lobbyId: string, name: string, isHost: bool,
                     userId: Option<int>, freshId: string, open: set<SocketId>): (r: Step)
    ensures r.conn == c.(lobbyId := Some(lobbyId), playerId := Some(freshId))
    ensures r.server.users == s.users
    ensures lobbyId in r.server.lobbies
    ensures r.server.lobbies == s.lobbies[lobbyId := r.server.lobbies[lobbyId]]
    ensures var before := LobbyOrEmpty(s.lobbies, lobbyId);
            var after := r.server.lobbies[lobbyId];
            && (FindPlayer(before.players, freshId).Some? ==> after == before)
            && (FindPlayer(before.players, freshId).None? ==>
                  after == before.(players := before.players + [NewPlayer(freshId, name, isHost, userId)],
                                   clients := before.clients + [c.socket]))
            && |after.clients| - |after.players| == |before.clients| - |before.players|
            && |r.out| > 0
            && r.out[0] == Delivery(c.socket, JoinedLobby(freshId, after.players))
            && BroadcastOf(r.out[1..], after, open, UpdatePlayers(after.players))
  {
    var before := LobbyOrEmpty(s.lobbies, lobbyId);
    var after :=
      if FindPlayer(before.players, freshId).Some? then before
      else before.(players := before.players + [NewPlayer(freshId, name, isHost, userId)],
                   clients := before.clients + [c.socket]);
    var lobbies := s.lobbies[lobbyId := after];
    Step(s.(lobbies := lobbies),
         c.(lobbyId := Some(lobbyId), playerId := Some(freshId)),
         [Delivery(c.socket, JoinedLobby(freshId, after.players))] +
         Broadcast(lobbies, lobbyId, open, UpdatePlayers(after.players)))
  }

  // ---------------------------------------------------------------------------
  // Game over
  // ---------------------------------------------------------------------------

  /**
   * The game-over path shared by the guess handler and startNextRound: winners are
   * taken from the players as they stand, the stats are written (a failing query is
   * swallowed), and gameOver goes to the lobby regardless.
   */
  function FinishGame(s: Server, lobbyId: string, dbFailAt: Option<nat>, open: set<SocketId>): (r: Effect)
    requires lobbyId in s.lobbies
    ensures r.server.lobbies == s.lobbies
    ensures r.server.users == GameOverDB(s.users, s.lobbies[lobbyId].players, dbFailAt)
    ensures var l := s.lobbies[lobbyId];
            BroadcastOf(r.out, l, open, GameOver(Winners(l.players), l.players))
  {
    var l := s.lobbies[lobbyId];
    Effect(s.(users := GameOverDB(s.users, l.players, dbFailAt)),
     Broadcast(s.lobbies, lobbyId, open, GameOver(Winners(l.players), l.players)))
  }

  // ---------------------------------------------------------------------------
  // playerGuess
  // ---------------------------------------------------------------------------

  /** The guess is acted on: the lobby and the player exist and the player is still guessing. */
  predicate GuessAccepted(s: Server, lobbyId: string, playerId: string)
  {
    && lobbyId in s.lobbies
    && FindPlayer(s.lobbies[lobbyId].players, playerId).Some?
    && !Resolved(s.lobbies[lobbyId].players[FindPlayer(s.lobbies[lobbyId].players, playerId).value])
  }

  /**
   * A guess is acted on exactly when the lobby exists and the first player with
   * the id (the one `find` returns) is still guessing.
   */
  lemma GuessAcceptedForFirstPending(s: Server, lobbyId: string, playerId: string)
    ensures GuessAccepted(s, lobbyId, playerId) <==>
              && lobbyId in s.lobbies
              && var ps := s.lobbies[lobbyId].players;
              exists i :: 0 <= i < |ps| && ps[i].id == playerId && !Resolved(ps[i]) &&
                          forall j :: 0 <= j < i ==> ps[j].id != playerId
  {
    if lobbyId in s.lobbies {
      var ps := s.lobbies[lobbyId].players;
      if i :| 0 <= i < |ps| && ps[i].id == playerId && !Resolved(ps[i]) &&
              forall j :: 0 <= j < i ==> ps[j].id != playerId {
        var k := FindPlayer(ps, playerId);
        assert k.Some?;
        assert k.value == i;
      }
    }
  }

  /** Record one guess: push the outcome, recount the attempt, and score a correct guess. */
  function RecordGuess(p: Player, correct: bool): (r: Player)
    ensures r == p.(guesses := r.guesses, currentAttempt := r.currentAttempt, isCorrect := r.isCorrect, score := r.score)
    ensures |r.guesses| == |p.guesses| + 1 && r.guesses[..|p.guesses|] == p.guesses
    ensures (r.guesses[|p.guesses|] == Correct) == correct
    ensures r.currentAttempt == |r.guesses|
    ensures r.isCorrect == (p.isCorrect || correct)
    ensures !correct ==> r.score == p.score
    ensures correct ==> r.score == p.score + PointsFor(|r.guesses|)
    ensures correct && |p.guesses| < MaxAttempts ==> r.score > p.score
  {
    var guesses := p.guesses + [if correct then Correct else Wrong];
    if correct then p.(guesses := guesses, currentAttempt := |guesses|, isCorrect := true,
                       score := p.score + PointsFor(|guesses|))
    else p.(guesses := guesses, currentAttempt := |guesses|)
  }

  /**
   * playerGuess: ignored when the lobby or player is missing or the player is
   * resolved; otherwise the first player with that id records the guess and the
   * lobby hears gameOver, roundOver or updatePlayers.
   */
  function PlayerGuess(s: Server, lobbyId: string, playerId: string, correct: bool,
                       dbFailAt: Option<nat>, open: set<SocketId>): (r: Effect)
    ensures !GuessAccepted(s, lobbyId, playerId) ==> r == Effect(s, [])
    ensures GuessAccepted(s, lobbyId, playerId) ==>
              var l := s.lobbies[lobbyId];
              var i := FindPlayer(l.players, playerId).value;
              var p := l.players[i];
              && lobbyId in r.server.lobbies
              && r.server.lobbies == s.lobbies[lobbyId := r.server.lobbies[lobbyId]]
              && var l' := r.server.lobbies[lobbyId];
              && l' == l.(players := l'.players)
              && |l'.players| == |l.players|
              && (forall j :: 0 <= j < |l.players| && j != i ==> l'.players[j] == l.players[j])
              && var p' := l'.players[i];
              && p'.guesses == p.guesses + [if correct then Correct else Wrong]
              && p'.currentAttempt == |p'.guesses|
              && p'.isCorrect == correct
              && p'.score == p.score + (if correct then PointsFor(|p'.guesses|) else 0)
              && (p'.id, p'.name, p'.isHost, p'.dbId) == (p.id, p.name, p.isHost, p.dbId)
              && (RoundComplete(l'.players) && l'.round >= l'.maxRounds ==>
                    r.server.users == GameOverDB(s.users, l'.players, dbFailAt) &&
                    BroadcastOf(r.out, l', open, GameOver(Winners(l'.players), l'.players)))
              && (RoundComplete(l'.players) && l'.round < l'.maxRounds ==>
                    r.server.users == s.users && BroadcastOf(r.out, l', open, RoundOver(l'.players)))
              && (!RoundComplete(l'.players) ==>
                    r.server.users == s.users && BroadcastOf(r.out, l', open, UpdatePlayers(l'.players)))
  {
    if !GuessAccepted(s, lobbyId, playerId) then Effect(s, [])
    else
      var l := s.lobbies[lobbyId];
      var i := FindPlayer(l.players, playerId).value;
      var l' := l.(players := l.players[i := RecordGuess(l.players[i], correct)]);
      var s' := s.(lobbies := s.lobbies[lobbyId := l']);
      if RoundComplete(l'.players) then
        if l'.round >= l'.maxRounds then FinishGame(s', lobbyId, dbFailAt, open)
        else Effect(s', Broadcast(s'.lobbies, lobbyId, open, RoundOver(l'.players)))
      else Effect(s', Broadcast(s'.lobbies, lobbyId, open, UpdatePlayers(l'.players)))
  }

  // ---------------------------------------------------------------------------
  // startGame / nextSong
  // ---------------------------------------------------------------------------

  /** A player at the start of a round: no attempts, not correct, no guesses. */
  function ResetForRound(p: Player): Player {
    p.(currentAttempt := 0, isCorrect := false, guesses := [])
  }

  /** `players.forEach` resetting every player for the new round. */
  function ResetAll(ps: seq<Player>): (r: seq<Player>)
    ensures |r| == |ps| && forall j :: 0 <= j < |ps| ==> r[j] == ResetForRound(ps[j])
  {
    seq(|ps|, j requires 0 <= j < |ps| => ResetForRound(ps[j]))
  }

  /** The fetch produced a usable track: `track && track.id`. */
  predicate UsableTrack(fetch: FetchResult) {
    fetch.FetchReturned? && fetch.track.Some? && fetch.track.value.id != ""
  }

  /**
   * startNextRound, the handler of both startGame and nextSong: bump the round; past
   * the last round run game-over; otherwise reset the players, then fetch a track.
   */
  function StartNextRound(s: Server, lobbyId: string, fetch: FetchResult, dbFailAt: Option<nat>,
                          open: set<SocketId>): (r: Effect)
    ensures lobbyId !in s.lobbies ==> r == Effect(s, [])
    ensures lobbyId in s.lobbies ==>
              var l := s.lobbies[lobbyId];
              && lobbyId in r.server.lobbies
              && r.server.lobbies == s.lobbies[lobbyId := r.server.lobbies[lobbyId]]
              && var l' := r.server.lobbies[lobbyId];
              && l'.round == l.round + 1
              && l'.clients == l.clients && l'.maxRounds == l.maxRounds
              && (l'.round > l'.maxRounds ==>
                    && l' == l.(round := l'.round)
                    && r.server.users == GameOverDB(s.users, l.players, dbFailAt)
                    && BroadcastOf(r.out, l', open, GameOver(Winners(l.players), l.players)))
              && (l'.round <= l'.maxRounds ==>
                    && r.server.users == s.users
                    && |l'.players| == |l.players|
                    && (forall j :: 0 <= j < |l.players| ==>
                          l'.players[j] == l.players[j].(currentAttempt := 0, isCorrect := false, guesses := []))
                    && (UsableTrack(fetch) ==>
                          l'.currentTrack == fetch.track &&
                          l'.usedTrackIds == l.usedTrackIds + [fetch.track.value.id] &&
                          BroadcastOf(r.out, l', open, StartRound(fetch.track.value, l'.players, l'.round)))
                    && (fetch.FetchThrew? ==>
                          l'.currentTrack == l.currentTrack && l'.usedTrackIds == l.usedTrackIds &&
                          BroadcastOf(r.out, l', open, Error(LoadFailedMessage)))
                    && (fetch.FetchReturned? && !UsableTrack(fetch) ==>
                          l'.currentTrack == l.currentTrack && l'.usedTrackIds == l.usedTrackIds &&
                          BroadcastOf(r.out, l', open, Error(InvalidTrackMessage))))
  {
    if lobbyId !in s.lobbies then Effect(s, [])
    else
      var l := s.lobbies[lobbyId].(round := s.lobbies[lobbyId].round + 1);
      if l.round > l.maxRounds then
        FinishGame(s.(lobbies := s.lobbies[lobbyId := l]), lobbyId, dbFailAt, open)
      else
        var reset := l.(players := ResetAll(l.players));
        match fetch
        case FetchThrew =>
          var lobbies := s.lobbies[lobbyId := reset];
          Effect(s.(lobbies := lobbies), Broadcast(lobbies, lobbyId, open, Error(LoadFailedMessage)))
        case FetchReturned(track) =>
          if track.Some? && track.value.id != "" then
            var started := reset.(currentTrack := track, usedTrackIds := reset.usedTrackIds + [track.value.id]);
            var lobbies := s.lobbies[lobbyId := started];
            Effect(s.(lobbies := lobbies),
             Broadcast(lobbies, lobbyId, open, StartRound(track.value, started.players, started.round)))
          else
            var lobbies := s.lobbies[lobbyId := reset];
            Effect(s.(lobbies := lobbies), Broadcast(lobbies, lobbyId, open, Error(InvalidTrackMessage)))
  }

  // ---------------------------------------------------------------------------
  // close
  // ---------------------------------------------------------------------------

  /** Promote `ps[0]` when players remain and none of them is host. */
  function PromoteHost(ps: seq<Player>): (r: seq<Player>)
    ensures |r| == |ps|
    ensures forall j :: 0 < j < |ps| ==> r[j] == ps[j]
    ensures |ps| > 0 ==> r[0] == ps[0].(isHost := ps[0].isHost || !AnyHost(ps))
    ensures |ps| > 0 ==> AnyHost(r)
  {
    if |ps| > 0 && !AnyHost(ps) then ps[0 := ps[0].(isHost := true)] else ps
  }

  /**
   * close: a no-op before join or for a missing lobby; otherwise drop every copy of
   * this socket and every player with this id, delete the lobby when no socket is
   * left, else promote a host if none remains and broadcast the player list.
   */
  function Close(s: Server, c: Connection, open: set<SocketId>): (r: Effect)
    ensures !HasJoined(c) || c.lobbyId.value !in s.lobbies ==> r == Effect(s, [])
    ensures HasJoined(c) && c.lobbyId.value in s.lobbies ==>
              var lobbyId := c.lobbyId.value;
              var l := s.lobbies[lobbyId];
              var kept := WithoutPlayer(l.players, c.playerId.value);
              && r.server.users == s.users
              && (Count(l.clients, c.socket) == |l.clients| ==>
                    r.server.lobbies == s.lobbies - {lobbyId} && r.out == [])
              && (Count(l.clients, c.socket) < |l.clients| ==>
                    && lobbyId in r.server.lobbies
                    && r.server.lobbies == s.lobbies[lobbyId := r.server.lobbies[lobbyId]]
                    && var l' := r.server.lobbies[lobbyId];
                    && (forall x :: x in l'.clients <==> x in l.clients && x != c.socket)
                    && |l'.clients| == |l.clients| - Count(l.clients, c.socket)
                    && |l'.players| == |kept|
                    && (forall j :: 0 < j < |kept| ==> l'.players[j] == kept[j])
                    && (|kept| > 0 ==> l'.players[0] == kept[0].(isHost := kept[0].isHost || !AnyHost(kept)))
                    && (l'.round, l'.maxRounds, l'.currentTrack, l'.usedTrackIds) ==
                       (l.round, l.maxRounds, l.currentTrack, l.usedTrackIds)
                    && BroadcastOf(r.out, l', open, UpdatePlayers(l'.players)))
  {
    if !HasJoined(c) || c.lobbyId.value !in s.lobbies then Effect(s, [])
    else
      var lobbyId := c.lobbyId.value;
      var l := s.lobbies[lobbyId];
      var clients := Without(l.clients, c.socket);
      var players := WithoutPlayer(l.players, c.playerId.value);
      if |clients| == 0 then
        Effect(s.(lobbies := s.lobbies - {lobbyId}), [])
      else
        var l' := l.(clients := clients, players := PromoteHost(players));
        var lobbies := s.lobbies[lobbyId := l'];
        Effect(s.(lobbies := lobbies), Broadcast(lobbies, lobbyId, open, UpdatePlayers(l'.players)))
  }

  // ---------------------------------------------------------------------------
  // Message dispatch
  // ---------------------------------------------------------------------------

  /** The inbound envelopes the server acts on, already parsed. */
  datatype Inbound =
    | JoinLobbyMsg(lobbyId: string, name: string, isHost: bool, userId: Option<int>)
    | StartGameMsg(lobbyId: string)
    | PlayerGuessMsg(lobbyId: string, playerId: string, correct: bool)
    | NextSongMsg(lobbyId: string)
    | PingMsg
    | UnrecognisedMsg

  /** Everything a handler learns from outside the lobby table. */
  datatype Env = Env(freshId: string, fetch: FetchResult, dbFailAt: Option<nat>, open: set<SocketId>)

  /** The `message` handler of one connection. */
  function HandleMessage(s: Server, c: Connection, m: Inbound, env: Env): (r: Step)
    ensures !m.JoinLobbyMsg? ==> r.conn == c
    ensures m.PingMsg? || m.UnrecognisedMsg? ==> r.server == s
    ensures m.PingMsg? ==> r.out == [Delivery(c.socket, Pong)]
    ensures m.UnrecognisedMsg? ==> r.out == []
  {
    match m
    case JoinLobbyMsg(lobbyId, name, isHost, userId) =>
      JoinLobby(s, c, lobbyId, name, isHost, userId, env.freshId, env.open)
    case StartGameMsg(lobbyId) =>
      var e := StartNextRound(s, lobbyId, env.fetch, env.dbFailAt, env.open);
      Step(e.server, c, e.out)
    case PlayerGuessMsg(lobbyId, playerId, correct) =>
      var e := PlayerGuess(s, lobbyId, playerId, correct, env.dbFailAt, env.open);
      Step(e.server, c, e.out)
    case NextSongMsg(lobbyId) =>
      var e := StartNextRound(s, lobbyId, env.fetch, env.dbFailAt, env.open);
      Step(e.server, c, e.out)
    case PingMsg => Step(s, c, [Delivery(c.socket, Pong)])
    case UnrecognisedMsg => Step(s, c, [])
  }
}

=== FILE: lobby_server_facts.dfy ===
/**
 * Properties of the lobby server's handlers (server/src/ws-server.ts) that relate
 * several handlers or several steps: the state invariant every message keeps,
 * the scoring rule, host promotion on close, and consequences of the handlers
 * as written: two hosts, repeated game overs, repeated tracks, stale players.
 */
module LobbyServerFacts {
  import opened Wrappers
  import opened Seqs
  import opened Outbox
  import opened LobbyState
  import opened GameOverStats
  import opened LobbyServer
  import Spotify

  /** Every lobby is well formed and every user's counters make sense. */
  predicate ServerInv(s: Server) {
    && (forall id :: id in s.lobbies ==> LobbyInv(s.lobbies[id]))
    && (forall uid :: uid in s.users ==> StatsInv(s.users[uid]))
  }

  // ---------------------------------------------------------------------------
  // The invariant
  // ---------------------------------------------------------------------------

  /** Recording a guess of a player still guessing keeps the player well formed. */
  lemma RecordGuessKeepsPlayerInv(p: Player, correct: bool)
    requires PlayerInv(p) && !Resolved(p)
    ensures PlayerInv(RecordGuess(p, correct))
  {
    var p' := RecordGuess(p, correct);
    forall i | 0 <= i < |p'.guesses|
      ensures p'.guesses[i] == Correct <==> p'.isCorrect && i == |p'.guesses| - 1
    {
      if i < |p.guesses| {
        assert p'.guesses[i] == p.guesses[i];
      }
    }
  }

  /** playerGuess keeps the invariant. */
  lemma GuessKeepsInv(s: Server, lobbyId: string, playerId: string, correct: bool,
                      dbFailAt: Option<nat>, open: set<SocketId>)
    requires ServerInv(s)
    ensures ServerInv(PlayerGuess(s, lobbyId, playerId, correct, dbFailAt, open).server)
  {
    if GuessAccepted(s, lobbyId, playerId) {
      var l := s.lobbies[lobbyId];
      var i := FindPlayer(l.players, playerId).value;
      RecordGuessKeepsPlayerInv(l.players[i], correct);
      var l' := PlayerGuess(s, lobbyId, playerId, correct, dbFailAt, open).server.lobbies[lobbyId];
      assert l'.players[i] == RecordGuess(l.players[i], correct);
      assert LobbyInv(l');
    }
  }

  /** startNextRound keeps the invariant: the reset players are well formed and the round only grows. */
  lemma NextRoundKeepsInv(s: Server, lobbyId: string, fetch: FetchResult,
                          dbFailAt: Option<nat>, open: set<SocketId>)
    requires ServerInv(s)
    ensures ServerInv(StartNextRound(s, lobbyId, fetch, dbFailAt, open).server)
  {
    if lobbyId in s.lobbies {
      var l := s.lobbies[lobbyId];
      var l' := StartNextRound(s, lobbyId, fetch, dbFailAt, open).server.lobbies[lobbyId];
      forall j | 0 <= j < |l'.players| ensures PlayerInv(l'.players[j]) {
        assert PlayerInv(l.players[j]);
      }
    }
  }

  /** joinLobby keeps the invariant; a created lobby starts at round 0 with five rounds. */
  lemma JoinKeepsInv(s: Server, c: Connection, lobbyId: string, name: string, isHost: bool,
                     userId: Option<int>, freshId: string, open: set<SocketId>)
    requires ServerInv(s)
    ensures ServerInv(JoinLobby(s, c, lobbyId, name, isHost, userId, freshId, open).server)
  {
    var before := LobbyOrEmpty(s.lobbies, lobbyId);
    var after := JoinLobby(s, c, lobbyId, name, isHost, userId, freshId, open).server.lobbies[lobbyId];
    assert LobbyInv(before);
    forall j | 0 <= j < |after.players| ensures PlayerInv(after.players[j]) {
      if j < |before.players| {
        assert after.players[j] == before.players[j];
      }
    }
  }

  /** close keeps the invariant: the remaining players are players of the lobby, possibly promoted. */
  lemma CloseKeepsInv(s: Server, c: Connection, open: set<SocketId>)
    requires ServerInv(s)
    ensures ServerInv(Close(s, c, open).server)
  {
    if HasJoined(c) && c.lobbyId.value in s.lobbies {
      var l := s.lobbies[c.lobbyId.value];
      var kept := WithoutPlayer(l.players, c.playerId.value);
      var r := Close(s, c, open).server;
      if c.lobbyId.value in r.lobbies {
        var l' := r.lobbies[c.lobbyId.value];
        forall j | 0 <= j < |l'.players| ensures PlayerInv(l'.players[j]) {
          assert kept[j] in l.players;
        }
      }
    }
  }

  /** Every message keeps the invariant. */
  lemma MessageKeepsInv(s: Server, c: Connection, m: Inbound, env: Env)
    requires ServerInv(s)
    ensures ServerInv(HandleMessage(s, c, m, env).server)
  {
    match m
    case JoinLobbyMsg(lobbyId, name, isHost, userId) =>
      JoinKeepsInv(s, c, lobbyId, name, isHost, userId, env.freshId, env.open);
    case StartGameMsg(lobbyId) =>
      NextRoundKeepsInv(s, lobbyId, env.fetch, env.dbFailAt, env.open);
    case PlayerGuessMsg(lobbyId, playerId, correct) =>
      GuessKeepsInv(s, lobbyId, playerId, correct, env.dbFailAt, env.open);
    case NextSongMsg(lobbyId) =>
      NextRoundKeepsInv(s, lobbyId, env.fetch, env.dbFailAt, env.open);
    case PingMsg =>
    case UnrecognisedMsg =>
  }

  /** In every reachable state no player has made more than five guesses this round. */
  lemma AttemptsStayWithinBudget(s: Server, lobbyId: string, j: nat)
    requires ServerInv(s) && lobbyId in s.lobbies && j < |s.lobbies[lobbyId].players|
    ensures s.lobbies[lobbyId].players[j].currentAttempt <= MaxAttempts
    ensures |s.lobbies[lobbyId].players[j].guesses| <= MaxAttempts
  {
    assert PlayerInv(s.lobbies[lobbyId].players[j]);
  }

  // ---------------------------------------------------------------------------
  // Scoring
  // ---------------------------------------------------------------------------

  /**
   * An accepted guess is the player's attempt number `currentAttempt + 1`; a correct
   * one earns `SCORE_POINTS[currentAttempt]`, a value from 5 down to 1, and a wrong
   * one earns nothing.
   */
  lemma AcceptedGuessScoring(s: Server, lobbyId: string, playerId: string, correct: bool,
                             dbFailAt: Option<nat>, open: set<SocketId>)
    requires ServerInv(s) && GuessAccepted(s, lobbyId, playerId)
    ensures var l := s.lobbies[lobbyId];
            var i := FindPlayer(l.players, playerId).value;
            var p := l.players[i];
            var p' := PlayerGuess(s, lobbyId, playerId, correct, dbFailAt, open).server.lobbies[lobbyId].players[i];
            && p'.currentAttempt == p.currentAttempt + 1 <= MaxAttempts
            && p'.score - p.score == (if correct then ScorePoints[p.currentAttempt] else 0)
            && (correct ==> 1 <= p'.score - p.score <= 5)
  {
    var l := s.lobbies[lobbyId];
    var i := FindPlayer(l.players, playerId).value;
    assert PlayerInv(l.players[i]);
  }

  /** A lobby's existing players keep their place and id, and their score does not drop. */
  predicate ScoresKept(before: Lobby, after: Lobby) {
    && |before.players| <= |after.players|
    && forall j :: 0 <= j < |before.players| ==>
         after.players[j].id == before.players[j].id && after.players[j].score >= before.players[j].score
  }

  /** No message lowers a score: scores are non-decreasing over a whole game. */
  lemma MessagesNeverLowerScores(s: Server, c: Connection, m: Inbound, env: Env)
    ensures var r := HandleMessage(s, c, m, env).server;
            forall id :: id in s.lobbies && id in r.lobbies ==> ScoresKept(s.lobbies[id], r.lobbies[id])
  {
    match m
    case JoinLobbyMsg(lobbyId, name, isHost, userId) =>
      JoinKeepsScores(s, c, lobbyId, name, isHost, userId, env.freshId, env.open);
    case PlayerGuessMsg(lobbyId, playerId, correct) =>
      GuessKeepsScores(s, lobbyId, playerId, correct, env.dbFailAt, env.open);
    case StartGameMsg(lobbyId) =>
      NextRoundKeepsScores(s, lobbyId, env.fetch, env.dbFailAt, env.open);
    case NextSongMsg(lobbyId) =>
      NextRoundKeepsScores(s, lobbyId, env.fetch, env.dbFailAt, env.open);
    case PingMsg =>
    case UnrecognisedMsg =>
  }

  /** A join only appends players. */
  lemma JoinKeepsScores(s: Server, c: Connection, lobbyId: string, name: string, isHost: bool,
                        userId: Option<int>, freshId: string, open: set<SocketId>)
    ensures var r := JoinLobby(s, c, lobbyId, name, isHost, userId, freshId, open).server;
            forall id :: id in s.lobbies && id in r.lobbies ==> ScoresKept(s.lobbies[id], r.lobbies[id])
  {
    var r := JoinLobby(s, c, lobbyId, name, isHost, userId, freshId, open).server;
    if lobbyId in s.lobbies {
      var before := s.lobbies[lobbyId];
      forall j | 0 <= j < |before.players| ensures r.lobbies[lobbyId].players[j] == before.players[j] { }
    }
  }

  /** A guess only adds points to the guessing player. */
  lemma GuessKeepsScores(s: Server, lobbyId: string, playerId: string, correct: bool,
                         dbFailAt: Option<nat>, open: set<SocketId>)
    ensures var r := PlayerGuess(s, lobbyId, playerId, correct, dbFailAt, open).server;
            forall id :: id in s.lobbies && id in r.lobbies ==> ScoresKept(s.lobbies[id], r.lobbies[id])
  {
    if GuessAccepted(s, lobbyId, playerId) {
      var l := s.lobbies[lobbyId];
      var i := FindPlayer(l.players, playerId).value;
      var l' := PlayerGuess(s, lobbyId, playerId, correct, dbFailAt, open).server.lobbies[lobbyId];
      assert l'.players[i].score >= l.players[i].score;
      assert ScoresKept(l, l');
    }
  }

  /** Starting a round resets round state but no score. */
  lemma NextRoundKeepsScores(s: Server, lobbyId: string, fetch: FetchResult,
                             dbFailAt: Option<nat>, open: set<SocketId>)
    ensures var r := StartNextRound(s, lobbyId, fetch, dbFailAt, open).server;
            forall id :: id in s.lobbies && id in r.lobbies ==> ScoresKept(s.lobbies[id], r.lobbies[id])
  {
  }

  // ---------------------------------------------------------------------------
  // Close
  // ---------------------------------------------------------------------------

  /**
   * When a close leaves players behind and none of them was host, exactly one of
   * them (the first) is host afterwards; when one was host already, the host
   * flags are untouched.
   */
  lemma CloseLeavesAHost(s: Server, c: Connection, open: set<SocketId>)
    requires HasJoined(c) && c.lobbyId.value in s.lobbies
    ensures var l := s.lobbies[c.lobbyId.value];
            var kept := WithoutPlayer(l.players, c.playerId.value);
            var r := Close(s, c, open).server;
            c.lobbyId.value in r.lobbies && |kept| > 0 ==>
              var l' := r.lobbies[c.lobbyId.value];
              && AnyHost(l'.players)
              && (!AnyHost(kept) ==> l'.players[0].isHost && HostCount(l'.players) == 1)
              && (AnyHost(kept) ==> l'.players == kept)
  {
    var l := s.lobbies[c.lobbyId.value];
    var kept := WithoutPlayer(l.players, c.playerId.value);
    var r := Close(s, c, open).server;
    if c.lobbyId.value in r.lobbies && |kept| > 0 {
      PromoteHostLeavesOneHost(kept);
      assert r.lobbies[c.lobbyId.value].players == PromoteHost(kept);
    }
  }

  /**
   * After a close that keeps the lobby and leaves a player with another id, the
   * first player is the earliest such player in join order; it is host if it
   * was already or if none of the players with another id was.
   */
  lemma ClosePromotesEarliestSurvivor(s: Server, c: Connection, open: set<SocketId>) returns (k: nat)
    requires HasJoined(c) && c.lobbyId.value in s.lobbies
    requires Count(s.lobbies[c.lobbyId.value].clients, c.socket) < |s.lobbies[c.lobbyId.value].clients|
    requires exists i :: 0 <= i < |s.lobbies[c.lobbyId.value].players| &&
                         s.lobbies[c.lobbyId.value].players[i].id != c.playerId.value
    ensures var ps, pid := s.lobbies[c.lobbyId.value].players, c.playerId.value;
            && k < |ps| && ps[k].id != pid
            && (forall j :: 0 <= j < k ==> ps[j].id == pid)
            && var noHost := forall i :: 0 <= i < |ps| && ps[i].id != pid ==> !ps[i].isHost;
            && Close(s, c, open).server.lobbies[c.lobbyId.value].players[0] ==
                 ps[k].(isHost := ps[k].isHost || noHost)
  {
    var l, pid := s.lobbies[c.lobbyId.value], c.playerId.value;
    var players := PromoteHost(WithoutPlayer(l.players, pid));
    CloseKeepingLobby(s, c, open, Without(l.clients, c.socket), players);
    k := PromotedHeadIsEarliestSurvivor(l.players, pid);
  }

  /** The list-level half: the promoted head of the filtered list is the earliest survivor. */
  lemma PromotedHeadIsEarliestSurvivor(ps: seq<Player>, pid: string) returns (k: nat)
    requires exists i :: 0 <= i < |ps| && ps[i].id != pid
    ensures && k < |ps| && ps[k].id != pid
            && (forall j :: 0 <= j < k ==> ps[j].id == pid)
            && var noHost := forall i :: 0 <= i < |ps| && ps[i].id != pid ==> !ps[i].isHost;
            && |PromoteHost(WithoutPlayer(ps, pid))| > 0
            && PromoteHost(WithoutPlayer(ps, pid))[0] == ps[k].(isHost := ps[k].isHost || noHost)
  {
    var i :| 0 <= i < |ps| && ps[i].id != pid;
    assert ps[i] in WithoutPlayer(ps, pid);
    k := WithoutPlayerFirst(ps, pid);
    KeptHostIsSurvivingHost(ps, pid);
  }

  /** The filtered list has a host exactly when some player with another id is host. */
  lemma KeptHostIsSurvivingHost(ps: seq<Player>, pid: string)
    ensures AnyHost(WithoutPlayer(ps, pid)) <==> exists i :: 0 <= i < |ps| && ps[i].id != pid && ps[i].isHost
  {
    var kept := WithoutPlayer(ps, pid);
    if AnyHost(kept) {
      var h :| 0 <= h < |kept| && kept[h].isHost;
      assert kept[h] in ps;
    }
    if i :| 0 <= i < |ps| && ps[i].id != pid && ps[i].isHost {
      assert ps[i] in kept;
      var h :| 0 <= h < |kept| && kept[h] == ps[i];
    }
  }

  /**
   * The promotion leaves a host in a non-empty list: the first player alone when
   * there was none, and otherwise the list as it was.
   */
  lemma PromoteHostLeavesOneHost(ps: seq<Player>)
    ensures var r := PromoteHost(ps);
            && (|ps| > 0 ==> AnyHost(r))
            && (|ps| > 0 && !AnyHost(ps) ==> r[0].isHost && HostCount(r) == 1)
            && (AnyHost(ps) ==> r == ps)
  {
    var r := PromoteHost(ps);
    if |ps| > 0 && !AnyHost(ps) {
      NoHostCountsZero(ps[1..]);
      assert r == [r[0]] + ps[1..];
    }
  }

  /** A list without a host has host count zero. */
  lemma {:induction false} NoHostCountsZero(ps: seq<Player>)
    requires forall i :: 0 <= i < |ps| ==> !ps[i].isHost
    ensures HostCount(ps) == 0
    decreases |ps|
  {
    if |ps| > 0 {
      NoHostCountsZero(ps[1..]);
    }
  }

  /**
   * Sockets and players leave together when the closing socket was registered once
   * and its player id is unique: the difference of the two list lengths is kept.
   */
  lemma CloseKeepsLockstepForSingleJoin(s: Server, c: Connection, open: set<SocketId>)
    requires HasJoined(c) && c.lobbyId.value in s.lobbies
    requires Count(s.lobbies[c.lobbyId.value].clients, c.socket) == 1
    requires CountId(s.lobbies[c.lobbyId.value].players, c.playerId.value) == 1
    ensures var l := s.lobbies[c.lobbyId.value];
            var r := Close(s, c, open).server;
            c.lobbyId.value in r.lobbies ==>
              |r.lobbies[c.lobbyId.value].clients| - |r.lobbies[c.lobbyId.value].players| == |l.clients| - |l.players|
  {
  }

  /** A join under a new id into an existing lobby appends its player and socket. */
  lemma JoinExisting(s: Server, c: Connection, lobbyId: string, name: string, isHost: bool,
                     userId: Option<int>, id: string, open: set<SocketId>)
    requires lobbyId in s.lobbies && FindPlayer(s.lobbies[lobbyId].players, id).None?
    ensures var l := s.lobbies[lobbyId];
            var j := JoinLobby(s, c, lobbyId, name, isHost, userId, id, open);
            && j.conn == c.(lobbyId := Some(lobbyId), playerId := Some(id))
            && j.server == s.(lobbies := s.lobbies[lobbyId := l.(players := l.players + [NewPlayer(id, name, isHost, userId)],
                                                               clients := l.clients + [c.socket])])
  {
  }

  /** A close that leaves a socket in the lobby keeps the filtered, possibly promoted lobby. */
  lemma CloseKeepingLobby(s: Server, c: Connection, open: set<SocketId>, clients: seq<SocketId>, players: seq<Player>)
    requires HasJoined(c) && c.lobbyId.value in s.lobbies
    requires clients == Without(s.lobbies[c.lobbyId.value].clients, c.socket) && |clients| > 0
    requires players == PromoteHost(WithoutPlayer(s.lobbies[c.lobbyId.value].players, c.playerId.value))
    ensures Close(s, c, open).server ==
              s.(lobbies := s.lobbies[c.lobbyId.value := s.lobbies[c.lobbyId.value].(clients := clients, players := players)])
  {
  }

  /** With a host among them, or no players at all, nobody is promoted. */
  lemma PromoteHostKeepsHosted(ps: seq<Player>)
    requires AnyHost(ps) || |ps| == 0
    ensures PromoteHost(ps) == ps
  {
  }

  /**
   * A fresh connection that joins and then leaves gives the server back
   * unchanged, provided the lobby was new, or it keeps other sockets and already
   * has a host (or no players), so that the leave promotes nobody.
   */
  lemma {:induction false} JoinThenCloseRestores(s: Server, c: Connection, lobbyId: string, name: string,
                                                 isHost: bool, userId: Option<int>, freshId: string,
                                                 open: set<SocketId>)
    requires lobbyId != "" && freshId != ""
    requires lobbyId in s.lobbies ==>
               var l := s.lobbies[lobbyId];
               && c.socket !in l.clients && |l.clients| > 0
               && FindPlayer(l.players, freshId).None?
               && (AnyHost(l.players) || |l.players| == 0)
    ensures var j := JoinLobby(s, c, lobbyId, name, isHost, userId, freshId, open);
            Close(j.server, j.conn, open).server == s
  {
    if lobbyId in s.lobbies {
      JoinThenCloseExisting(s, c, lobbyId, name, isHost, userId, freshId, open);
    } else {
      var j := JoinLobby(s, c, lobbyId, name, isHost, userId, freshId, open);
      assert HasJoined(j.conn);
      assert j.server.lobbies[lobbyId].clients == [c.socket];
      MapAddedThenRemoved(s.lobbies, lobbyId, j.server.lobbies[lobbyId]);
    }
  }

  /** The case of JoinThenCloseRestores where the lobby already existed. */
  lemma JoinThenCloseExisting(s: Server, c: Connection, lobbyId: string, name: string,
                              isHost: bool, userId: Option<int>, freshId: string, open: set<SocketId>)
    requires lobbyId != "" && freshId != "" && lobbyId in s.lobbies
    requires var l := s.lobbies[lobbyId];
             && c.socket !in l.clients && |l.clients| > 0
             && FindPlayer(l.players, freshId).None?
             && (AnyHost(l.players) || |l.players| == 0)
    ensures var j := JoinLobby(s, c, lobbyId, name, isHost, userId, freshId, open);
            Close(j.server, j.conn, open).server == s
  {
    JoinExisting(s, c, lobbyId, name, isHost, userId, freshId, open);
    CloseUndoesJoin(s, c, lobbyId, NewPlayer(freshId, name, isHost, userId), open);
  }

  /** Closing the connection whose join appended `p` and its socket gives back the server before the join. */
  lemma CloseUndoesJoin(s: Server, c: Connection, lobbyId: string, p: Player, open: set<SocketId>)
    requires lobbyId != "" && p.id != "" && lobbyId in s.lobbies
    requires var l := s.lobbies[lobbyId];
             && c.socket !in l.clients && |l.clients| > 0
             && FindPlayer(l.players, p.id).None?
             && (AnyHost(l.players) || |l.players| == 0)
    ensures var l := s.lobbies[lobbyId];
            var after := l.(players := l.players + [p], clients := l.clients + [c.socket]);
            Close(s.(lobbies := s.lobbies[lobbyId := after]), c.(lobbyId := Some(lobbyId), playerId := Some(p.id)), open).server == s
  {
    var l := s.lobbies[lobbyId];
    var after := l.(players := l.players + [p], clients := l.clients + [c.socket]);
    var s2 := s.(lobbies := s.lobbies[lobbyId := after]);
    var c2 := c.(lobbyId := Some(lobbyId), playerId := Some(p.id));
    WithoutAppended(l.clients, c.socket);
    PlayerAppendedThenRemoved(l.players, p);
    PromoteHostKeepsHosted(l.players);
    assert HasJoined(c2);
    CloseKeepingLobby(s2, c2, open, l.clients, l.players);
    assert after.(clients := l.clients, players := l.players) == l;
    MapRestored(s.lobbies, lobbyId, after);
  }

  /** Filtering out the id of a player appended to a list without that id gives the list back. */
  lemma {:induction false} PlayerAppendedThenRemoved(ps: seq<Player>, p: Player)
    requires FindPlayer(ps, p.id).None?
    ensures WithoutPlayer(ps + [p], p.id) == ps
    decreases |ps|
  {
    if |ps| > 0 {
      assert (ps + [p])[1..] == ps[1..] + [p];
      PlayerAppendedThenRemoved(ps[1..], p);
    }
  }

  // ---------------------------------------------------------------------------
  // Counting
  // ---------------------------------------------------------------------------

  /** Appending a player adds its host flag to the host count. */
  lemma HostCountAppend(ps: seq<Player>, p: Player)
    ensures HostCount(ps + [p]) == HostCount(ps) + (if p.isHost then 1 else 0)
  {
    if |ps| > 0 {
      assert (ps + [p])[1..] == ps[1..] + [p];
      HostCountAppend(ps[1..], p);
    }
  }

  /** A list holding a host has a positive host count. */
  lemma HostCountPositive(ps: seq<Player>, i: nat)
    requires i < |ps| && ps[i].isHost
    ensures HostCount(ps) >= 1
  {
    if i > 0 {
      HostCountPositive(ps[1..], i - 1);
    }
  }

  /** Appending an element adds one to its count and nothing to any other. */
  lemma CountAppend<T>(s: seq<T>, x: T, y: T)
    ensures Count(s + [y], x) == Count(s, x) + (if y == x then 1 else 0)
  {
    if |s| > 0 {
      assert (s + [y])[1..] == s[1..] + [y];
      CountAppend(s[1..], x, y);
    }
  }

  /** Appending a player adds one to the count of its id. */
  lemma CountIdAppend(ps: seq<Player>, id: string, p: Player)
    ensures CountId(ps + [p], id) == CountId(ps, id) + (if p.id == id then 1 else 0)
  {
    if |ps| > 0 {
      assert (ps + [p])[1..] == ps[1..] + [p];
      CountIdAppend(ps[1..], id, p);
    }
  }

  /** An id the lookup does not find has count zero. */
  lemma NotFoundCountsZero(ps: seq<Player>, id: string)
    requires FindPlayer(ps, id).None?
    ensures CountId(ps, id) == 0
  {
    if |ps| > 0 {
      NotFoundCountsZero(ps[1..], id);
    }
  }

  // ---------------------------------------------------------------------------
  // Consequences of the handlers as written
  // ---------------------------------------------------------------------------

  /**
   * The host flag is taken from the client: a joiner asking for it becomes a second
   * host of a lobby that already has one.
   */
  lemma TrustedHostFlagAllowsTwoHosts(s: Server, c: Connection, lobbyId: string, name: string,
                                      userId: Option<int>, freshId: string, open: set<SocketId>)
    requires lobbyId in s.lobbies && AnyHost(s.lobbies[lobbyId].players)
    requires FindPlayer(s.lobbies[lobbyId].players, freshId).None?
    ensures HostCount(JoinLobby(s, c, lobbyId, name, true, userId, freshId, open).server.lobbies[lobbyId].players) >= 2
  {
    var ps := s.lobbies[lobbyId].players;
    var i :| 0 <= i < |ps| && ps[i].isHost;
    HostCountPositive(ps, i);
    HostCountAppend(ps, NewPlayer(freshId, name, true, userId));
  }

  /**
   * A second join on the same socket registers the socket twice; its close then
   * removes both copies but only the latest player, so the lobby keeps a player
   * with no connection.
   */
  lemma RejoinOnOneSocketLeavesStalePlayer(s: Server, c: Connection, lobbyId: string, name: string,
                                           id1: string, id2: string, open: set<SocketId>)
    requires lobbyId != "" && id1 != "" && id2 != "" && id1 != id2
    requires lobbyId in s.lobbies
    requires |s.lobbies[lobbyId].clients| > 0 && c.socket !in s.lobbies[lobbyId].clients
    requires FindPlayer(s.lobbies[lobbyId].players, id1).None? && FindPlayer(s.lobbies[lobbyId].players, id2).None?
    ensures var l := s.lobbies[lobbyId];
            var j1 := JoinLobby(s, c, lobbyId, name, false, None, id1, open);
            var j2 := JoinLobby(j1.server, j1.conn, lobbyId, name, false, None, id2, open);
            var closed := Close(j2.server, j2.conn, open).server;
            && Count(j2.server.lobbies[lobbyId].clients, c.socket) == 2
            && lobbyId in closed.lobbies
            && |closed.lobbies[lobbyId].clients| == |l.clients|
            && |closed.lobbies[lobbyId].players| == |l.players| + 1
  {
    var l := s.lobbies[lobbyId];
    var p1 := NewPlayer(id1, name, false, None);
    var p2 := NewPlayer(id2, name, false, None);
    JoinExisting(s, c, lobbyId, name, false, None, id1, open);
    var l1 := l.(players := l.players + [p1], clients := l.clients + [c.socket]);
    var s1 := s.(lobbies := s.lobbies[lobbyId := l1]);
    var c1 := c.(lobbyId := Some(lobbyId), playerId := Some(id1));
    assert FindPlayer(l1.players, id2).None? by {
      forall j | 0 <= j < |l1.players| ensures l1.players[j].id != id2 {
        if j < |l.players| { assert l1.players[j] == l.players[j]; }
      }
    }
    JoinExisting(s1, c1, lobbyId, name, false, None, id2, open);
    var l2 := l1.(players := l1.players + [p2], clients := l1.clients + [c.socket]);
    var s2 := s1.(lobbies := s1.lobbies[lobbyId := l2]);
    var c2 := c.(lobbyId := Some(lobbyId), playerId := Some(id2));
    RejoinCounts(l.clients, l.players, c.socket, p1, p2);
    assert HasJoined(c2);
    CloseKeepingLobby(s2, c2, open, Without(l2.clients, c.socket), PromoteHost(WithoutPlayer(l2.players, id2)));
  }

  /**
   * The list arithmetic behind RejoinOnOneSocketLeavesStalePlayer: a socket pushed
   * twice occurs twice and is removed twice, but of the two players pushed only
   * the one with the later id is removed.
   */
  lemma RejoinCounts(clients: seq<SocketId>, players: seq<Player>, x: SocketId, p1: Player, p2: Player)
    requires x !in clients && FindPlayer(players, p2.id).None? && p1.id != p2.id
    ensures Count(clients + [x] + [x], x) == 2
    ensures |Without(clients + [x] + [x], x)| == |clients|
    ensures |WithoutPlayer(players + [p1] + [p2], p2.id)| == |players| + 1
  {
    assert Count(clients, x) == 0 by {
      assert Without(clients, x) == clients;
    }
    CountAppend(clients, x, x);
    CountAppend(clients + [x], x, x);
    NotFoundCountsZero(players, p2.id);
    CountIdAppend(players, p2.id, p1);
    CountIdAppend(players + [p1], p2.id, p2);
  }

  /**
   * nextSong after the last round runs game-over again, each time: the round
   * counter passes maxRounds and every user is counted its reports again per
   * call, one more game for each player reporting to it.
   */
  lemma GameOverRepeatsOnEveryNextSong(s: Server, lobbyId: string, uid: int,
                                       fetch1: FetchResult, fetch2: FetchResult, open: set<SocketId>)
    requires lobbyId in s.lobbies && s.lobbies[lobbyId].round >= s.lobbies[lobbyId].maxRounds
    requires uid in s.users
    ensures var e1 := StartNextRound(s, lobbyId, fetch1, None, open);
            var e2 := StartNextRound(e1.server, lobbyId, fetch2, None, open);
            && e2.server.lobbies[lobbyId].round == s.lobbies[lobbyId].round + 2 > s.lobbies[lobbyId].maxRounds + 1
            && e2.server.users[uid].gamesPlayed == s.users[uid].gamesPlayed + 2 * Reports(s.lobbies[lobbyId].players, uid)
  {
    var e1 := StartNextRound(s, lobbyId, fetch1, None, open);
    assert e1.server.lobbies[lobbyId].players == s.lobbies[lobbyId].players;
    assert e1.server.users[uid].gamesPlayed == s.users[uid].gamesPlayed + Reports(s.lobbies[lobbyId].players, uid);
  }

  /**
   * The used-track list is never consulted: a fetch that returns an id used earlier
   * in the game starts the round with it and records the id a second time.
   */
  lemma UsedTrackIdsDoNotPreventRepeats(s: Server, lobbyId: string, t: Spotify.Track, open: set<SocketId>)
    requires lobbyId in s.lobbies && s.lobbies[lobbyId].round < s.lobbies[lobbyId].maxRounds
    requires t.id != "" && t.id in s.lobbies[lobbyId].usedTrackIds
    ensures var l' := StartNextRound(s, lobbyId, FetchReturned(Some(t)), None, open).server.lobbies[lobbyId];
            l'.currentTrack == Some(t) && !NoDup(l'.usedTrackIds)
  {
    var used := s.lobbies[lobbyId].usedTrackIds;
    var l' := StartNextRound(s, lobbyId, FetchReturned(Some(t)), None, open).server.lobbies[lobbyId];
    var k :| 0 <= k < |used| && used[k] == t.id;
    assert l'.usedTrackIds[k] == l'.usedTrackIds[|used|];
  }

  /** The server after each of `sends` is handled in turn, each on its connection and under its own environment. */
  function HandleAll(s: Server, sends: seq<(Connection, Inbound, Env)>): Server
    decreases |sends|
  {
    if |sends| == 0 then s
    else HandleAll(HandleMessage(s, sends[0].0, sends[0].1, sends[0].2).server, sends[1..])
  }

  /**
   * startGame and nextSong are taken from any connection, joined to the lobby or
   * not, in any phase and whatever each fetch and database write does; each bumps
   * the round and none resets it, so after any run of them the counter has grown
   * by exactly their number.
   */
  lemma {:induction false} StartsOnlyCountRoundsUp(s: Server, lobbyId: string, sends: seq<(Connection, Inbound, Env)>)
    requires lobbyId in s.lobbies
    requires forall i :: 0 <= i < |sends| ==> sends[i].1 == StartGameMsg(lobbyId) || sends[i].1 == NextSongMsg(lobbyId)
    ensures lobbyId in HandleAll(s, sends).lobbies
    ensures HandleAll(s, sends).lobbies[lobbyId].round == s.lobbies[lobbyId].round + |sends|
    decreases |sends|
  {
    if |sends| > 0 {
      var s1 := HandleMessage(s, sends[0].0, sends[0].1, sends[0].2).server;
      assert s1.lobbies[lobbyId].round == s.lobbies[lobbyId].round + 1;
      StartsOnlyCountRoundsUp(s1, lobbyId, sends[1..]);
    }
  }

  /**
   * The players are reset before the track is fetched: a fetch that fails leaves
   * them reset and the round bumped with the old track, so retrying with nextSong
   * starts the following round and the failed one is lost.
   */
  lemma FailedFetchUsesUpARound(s: Server, lobbyId: string, failed: FetchResult, t: Spotify.Track,
                                open: set<SocketId>)
    requires lobbyId in s.lobbies && s.lobbies[lobbyId].round + 2 <= s.lobbies[lobbyId].maxRounds
    requires !UsableTrack(failed) && t.id != ""
    ensures var l := s.lobbies[lobbyId];
            var e1 := StartNextRound(s, lobbyId, failed, None, open);
            var l1 := e1.server.lobbies[lobbyId];
            var l2 := StartNextRound(e1.server, lobbyId, FetchReturned(Some(t)), None, open).server.lobbies[lobbyId];
            && l1.round == l.round + 1 && l1.currentTrack == l.currentTrack
            && l1.players == ResetAll(l.players)
            && l2.round == l.round + 2 && l2.currentTrack == Some(t)
  {
  }
}

=== FILE: lobby_state.dfy ===
/**
 * The in-memory state of the multiplayer lobby server (server/src/ws-server.ts):
 * players, lobbies, the reward table, the round-complete predicate and the
 * winner rule shared by both game-over paths.
 */
module LobbyState {
  import opened Wrappers
  import Spotify
  import opened Outbox
  import Seqs

  /** Guesses a player may make in one round (the literal 5 of the guess handler). */
  const MaxAttempts: int := 5

  /** Rounds in a game; every lobby is created with this value and it never changes. */
  const DefaultMaxRounds: int := 5

  /** SCORE_POINTS: reward for a correct guess on attempt 1, 2, ..., 5. */
  const ScorePoints: seq<int> := [5, 4, 3, 2, 1]

  /** The strings "correct" and "wrong" pushed onto a player's guess list. */
  datatype GuessOutcome = Correct | Wrong

  /** A player as held by the server; `dbId` is the optional user id used only for stats. */
  datatype Player = Player(
    id: string,
    name: string,
    score: int,
    isHost: bool,
    currentAttempt: int,
    isCorrect: bool,
    guesses: seq<GuessOutcome>,
    dbId: Option<int>)

  /** A lobby: its sockets, its players, the round's track and the round counter. */
  datatype Lobby = Lobby(
    clients: seq<SocketId>,
    players: seq<Player>,
    currentTrack: Option<Spotify.Track>,
    round: int,
    maxRounds: int,
    usedTrackIds: seq<string>)

  /** The lobby a first join creates. */
  const EmptyLobby: Lobby := Lobby([], [], None, 0, DefaultMaxRounds, [])

  /** The player a join creates; `isHost` is whatever the client sent. */
  function NewPlayer(id: string, name: string, isHost: bool, dbId: Option<int>): (p: Player)
    ensures p.id == id && p.name == name && p.isHost == isHost && p.dbId == dbId
    ensures p.score == 0 && p.currentAttempt == 0 && !p.isCorrect && p.guesses == []
  {
    Player(id, name, 0, isHost, 0, false, [], dbId)
  }

  /**
   * `SCORE_POINTS[attempt - 1] || 0`: the reward for a correct guess whose 1-based
   * attempt number is `attempt`; outside the table the lookup is undefined and
   * falls back to 0.
   */
  function PointsFor(attempt: int): (p: int)
    ensures 1 <= attempt <= MaxAttempts ==> p == MaxAttempts + 1 - attempt
    ensures !(1 <= attempt <= MaxAttempts) ==> p == 0
    ensures 0 <= p <= 5
  {
    if 1 <= attempt <= |ScorePoints| then ScorePoints[attempt - 1] else 0
  }

  /** A player no longer counts as pending in the round: solved, or out of attempts. */
  predicate Resolved(p: Player) {
    p.isCorrect || p.currentAttempt >= MaxAttempts
  }

  /** The round-complete predicate, evaluated after every accepted guess. */
  predicate RoundComplete(ps: seq<Player>) {
    forall i :: 0 <= i < |ps| ==> Resolved(ps[i])
  }

  /** `Math.max(...scores)` over a non-empty player list. */
  function MaxScore(ps: seq<Player>): (m: int)
    requires |ps| > 0
    ensures forall i :: 0 <= i < |ps| ==> ps[i].score <= m
    ensures exists i :: 0 <= i < |ps| && ps[i].score == m
  {
    if |ps| == 1 then ps[0].score
    else
      var rest := MaxScore(ps[1..]);
      assert forall i :: 1 <= i < |ps| ==> ps[i] == ps[1..][i - 1];
      if ps[0].score >= rest then ps[0].score else rest
  }

  /** The players of `ps` whose score equals `m`, in list order. */
  function WithScore(ps: seq<Player>, m: int): (w: seq<Player>)
    ensures |w| <= |ps|
    ensures forall p :: p in w <==> p in ps && p.score == m
  {
    if |ps| == 0 then []
    else if ps[0].score == m then [ps[0]] + WithScore(ps[1..], m)
    else WithScore(ps[1..], m)
  }

  /**
   * `players.filter(p => p.score === Math.max(...scores))`; with no players the
   * maximum is -Infinity and the filter is empty. The winners are exactly the
   * players holding the top score, ties and the all-zero game included, and
   * there is one whenever there is a player.
   */
  function Winners(ps: seq<Player>): (w: seq<Player>)
    ensures forall p :: p in w <==> p in ps && Unbeaten(ps, p)
    ensures |ps| > 0 <==> |w| > 0
  {
    if |ps| == 0 then []
    else
      var m := MaxScore(ps);
      TopScoreIsMax(ps, m);
      WithScore(ps, m)
  }

  /** No player of `ps` scores more than `p`. */
  predicate Unbeaten(ps: seq<Player>, p: Player) {
    forall q :: q in ps ==> q.score <= p.score
  }

  /** Holding the maximum score is the same as being beaten by no one. */
  lemma TopScoreIsMax(ps: seq<Player>, m: int)
    requires |ps| > 0 && m == MaxScore(ps)
    ensures forall p :: p in ps ==> (p.score == m <==> Unbeaten(ps, p))
    ensures |WithScore(ps, m)| > 0
  {
    var i :| 0 <= i < |ps| && ps[i].score == m;
    assert ps[i] in WithScore(ps, m);
    forall p | p in ps
      ensures p.score == m <==> Unbeaten(ps, p)
    {
      if p.score == m {
        forall q | q in ps
          ensures q.score <= p.score
        {
          var j :| 0 <= j < |ps| && ps[j] == q;
        }
      }
      if Unbeaten(ps, p) {
        assert ps[i] in ps;
        var j :| 0 <= j < |ps| && ps[j] == p;
      }
    }
  }

  // ---------------------------------------------------------------------------
  // Player-list queries
  // ---------------------------------------------------------------------------

  /** `players.find(p => p.id === id)`, as the index of the first match. */
  function FindPlayer(ps: seq<Player>, id: string): (r: Option<nat>)
    ensures r.Some? ==> r.value < |ps| && ps[r.value].id == id &&
                        forall j :: 0 <= j < r.value ==> ps[j].id != id
    ensures r.None? <==> forall j :: 0 <= j < |ps| ==> ps[j].id != id
  {
    if |ps| == 0 then None
    else if ps[0].id == id then Some(0)
    else match FindPlayer(ps[1..], id)
      case None => None
      case Some(k) => Some(k + 1)
  }

  /** How many players of `ps` carry the id. */
  function CountId(ps: seq<Player>, id: string): nat {
    if |ps| == 0 then 0 else (if ps[0].id == id then 1 else 0) + CountId(ps[1..], id)
  }

  /** `players.filter(p => p.id !== id)`. */
  function WithoutPlayer(ps: seq<Player>, id: string): (r: seq<Player>)
    ensures forall p :: p in r <==> p in ps && p.id != id
    ensures |r| == |ps| - CountId(ps, id)
    ensures CountId(ps, id) == 0 ==> r == ps
  {
    if |ps| == 0 then []
    else if ps[0].id == id then WithoutPlayer(ps[1..], id)
    else [ps[0]] + WithoutPlayer(ps[1..], id)
  }

  /**
   * The player filter works player by player and keeps the join order, so it
   * splits over a concatenation.
   */
  lemma {:induction false} WithoutPlayerConcat(ps: seq<Player>, qs: seq<Player>, id: string)
    ensures WithoutPlayer(ps + qs, id) == WithoutPlayer(ps, id) + WithoutPlayer(qs, id)
    decreases |ps|
  {
    if |ps| == 0 {
      assert ps + qs == qs;
    } else {
      var h, rest := ps[0], ps[1..];
      Seqs.SplitHead(ps, qs);
      WithoutPlayerCons(h, rest + qs, id);
      WithoutPlayerCons(h, rest, id);
      WithoutPlayerConcat(rest, qs, id);
      if h.id != id {
        Seqs.ConsAssociates(h, WithoutPlayer(rest, id), WithoutPlayer(qs, id));
      }
    }
  }

  /** One step of the player filter: the head goes exactly when it carries the id. */
  lemma WithoutPlayerCons(h: Player, ps: seq<Player>, id: string)
    ensures WithoutPlayer([h] + ps, id) == if h.id == id then WithoutPlayer(ps, id) else [h] + WithoutPlayer(ps, id)
  {
    assert ([h] + ps)[0] == h && ([h] + ps)[1..] == ps;
  }

  /** The first player the filter keeps is the earliest one with another id. */
  lemma {:induction false} WithoutPlayerFirst(ps: seq<Player>, id: string) returns (k: nat)
    requires |WithoutPlayer(ps, id)| > 0
    ensures k < |ps| && ps[k].id != id && WithoutPlayer(ps, id)[0] == ps[k]
    ensures forall j :: 0 <= j < k ==> ps[j].id == id
    decreases |ps|
  {
    if ps[0].id != id {
      k := 0;
    } else {
      var k' := WithoutPlayerFirst(ps[1..], id);
      k := k' + 1;
      assert ps[k] == ps[1..][k'];
      forall j | 0 <= j < k ensures ps[j].id == id {
        if j > 0 { assert ps[j] == ps[1..][j - 1]; }
      }
    }
  }

  /** `players.some(p => p.isHost)`. */
  predicate AnyHost(ps: seq<Player>) {
    exists i :: 0 <= i < |ps| && ps[i].isHost
  }

  /** How many players of `ps` hold the host flag. */
  function HostCount(ps: seq<Player>): nat {
    if |ps| == 0 then 0 else (if ps[0].isHost then 1 else 0) + HostCount(ps[1..])
  }

  // ---------------------------------------------------------------------------
  // Invariants the handlers keep
  // ---------------------------------------------------------------------------

  /**
   * A player's round state: the attempt counter mirrors the guess list, stays
   * within the attempt budget, a correct outcome can only be the last guess and
   * is there exactly when the correctness flag is set; the score is never negative.
   */
  predicate PlayerInv(p: Player) {
    && 0 <= p.currentAttempt == |p.guesses| <= MaxAttempts
    && p.score >= 0
    && (p.isCorrect ==> |p.guesses| > 0)
    && (forall i :: 0 <= i < |p.guesses| ==> (p.guesses[i] == Correct <==> p.isCorrect && i == |p.guesses| - 1))
  }

  /** Every player of a lobby is well formed, the round counter is non-negative and maxRounds is 5. */
  predicate LobbyInv(l: Lobby) {
    && (forall i :: 0 <= i < |l.players| ==> PlayerInv(l.players[i]))
    && l.round >= 0
    && l.maxRounds == DefaultMaxRounds
  }
}

=== FILE: outbox.dfy ===
/**
 * Sockets and message fan-out, shared by both lobby servers: a socket is an
 * abstract id, its ready state is membership in the set of open sockets, and a
 * `send` is an entry appended to the outbox.
 */
module Outbox {
  import opened Wrappers
  import opened Seqs

  /** A connection, compared by identity as the servers compare sockets. */
  type SocketId = nat

  /** A connection and the two variables its handlers close over. */
  datatype Connection = Connection(socket: SocketId, lobbyId: Option<string>, playerId: Option<string>)

  /** The close handler's guard: both closure variables are set and non-empty. */
  predicate HasJoined(c: Connection) {
    Truthy(c.lobbyId) && Truthy(c.playerId)
  }

  /** One `send` of message `message` on socket `to`. */
  datatype Delivery<M> = Delivery(to: SocketId, message: M)

  /** `clients.forEach(c => { if (c.readyState === OPEN) c.send(m) })`. */
  function SendToOpen<M(==)>(clients: seq<SocketId>, open: set<SocketId>, m: M): (out: seq<Delivery<M>>)
    ensures |out| <= |clients|
    ensures forall d :: d in out ==> d.message == m && d.to in open && d.to in clients
    ensures forall c :: c in clients && c in open ==> Delivery(c, m) in out
    ensures forall c :: Count(out, Delivery(c, m)) == if c in open then Count(clients, c) else 0
  {
    if |clients| == 0 then []
    else
      var rest := SendToOpen(clients[1..], open, m);
      if clients[0] in open then
        assert ([Delivery(clients[0], m)] + rest)[1..] == rest;
        [Delivery(clients[0], m)] + rest
      else rest
  }

  /** `out` is `m` delivered to exactly the open sockets among `clients`, once per registration. */
  ghost predicate DeliveredToOpen<M>(out: seq<Delivery<M>>, clients: seq<SocketId>, open: set<SocketId>, m: M) {
    && (forall d :: d in out ==> d.message == m && d.to in clients && d.to in open)
    && (forall c :: c in clients && c in open ==> Delivery(c, m) in out)
    && (forall c :: Count(out, Delivery(c, m)) == if c in open then Count(clients, c) else 0)
  }
}

=== FILE: seqs.dfy ===
/**
 * Collection helpers shared by the models: duplicate-freedom, counting and
 * deleting an element of a sequence, and undoing a map update.
 */
module Seqs {

  /** No element occurs twice (an insertion-ordered set, read as a sequence). */
  predicate NoDup<T(==)>(s: seq<T>) {
    forall i, j :: 0 <= i < j < |s| ==> s[i] != s[j]
  }

  /** How often `x` occurs in `s`. */
  function Count<T(==)>(s: seq<T>, x: T): nat {
    if |s| == 0 then 0 else (if s[0] == x then 1 else 0) + Count(s[1..], x)
  }

  /** `s.filter(y => y !== x)`: every occurrence of `x` deleted, order otherwise kept. */
  function Without<T(==,!new)>(s: seq<T>, x: T): (r: seq<T>)
    ensures forall y :: y in r <==> y in s && y != x
    ensures |r| == |s| - Count(s, x)
    ensures NoDup(s) ==> NoDup(r)
    ensures x !in s ==> r == s
  {
    if |s| == 0 then []
    else if s[0] == x then Without(s[1..], x)
    else
      var rest := Without(s[1..], x);
      assert NoDup(s) ==> s[0] !in s[1..];
      NoDupCons(s[0], rest);
      [s[0]] + rest
  }

  /** An element that is present in a duplicate-free sequence occurs exactly once. */
  lemma {:induction false} CountInNoDup<T>(s: seq<T>, x: T)
    requires NoDup(s)
    ensures Count(s, x) == (if x in s then 1 else 0)
    decreases |s|
  {
    if |s| > 0 {
      assert NoDup(s[1..]) by {
        forall i, j | 0 <= i < j < |s[1..]| ensures s[1..][i] != s[1..][j] {
          assert s[1..][i] == s[i + 1] && s[1..][j] == s[j + 1];
        }
      }
      CountInNoDup(s[1..], x);
      if s[0] == x {
        assert x !in s[1..];
      }
    }
  }

  /** Putting an absent element in front of a duplicate-free sequence keeps it duplicate-free. */
  lemma NoDupCons<T>(x: T, t: seq<T>)
    ensures NoDup(t) && x !in t ==> NoDup([x] + t)
  {
    var s := [x] + t;
    forall i, j | NoDup(t) && x !in t && 0 <= i < j < |s| ensures s[i] != s[j] {
      if i == 0 {
        assert s[j] == t[j - 1];
      } else {
        assert s[i] == t[i - 1] && s[j] == t[j - 1];
      }
    }
  }

  /**
   * One step of `Without`: the head is dropped exactly when it is the deleted
   * element. The deletion is a filter, working element by element and keeping
   * the order, so it splits over a concatenation (`WithoutConcat`).
   */
  lemma WithoutCons<T(!new)>(h: T, t: seq<T>, x: T)
    ensures Without([h] + t, x) == if h == x then Without(t, x) else [h] + Without(t, x)
  {
    assert ([h] + t)[0] == h && ([h] + t)[1..] == t;
  }

  /** Splitting off the head of a non-empty sequence, alone and in front of a suffix. */
  lemma SplitHead<T>(s: seq<T>, t: seq<T>)
    requires |s| > 0
    ensures s == [s[0]] + s[1..]
    ensures s + t == [s[0]] + (s[1..] + t)
  {
  }

  /** `Without` is a filter: it keeps the order of what it keeps, so it distributes over concatenation. */
  lemma {:induction false} WithoutConcat<T(!new)>(s: seq<T>, t: seq<T>, x: T)
    ensures Without(s + t, x) == Without(s, x) + Without(t, x)
    decreases |s|
  {
    if |s| == 0 {
      assert s + t == t;
    } else {
      var h, rest := s[0], s[1..];
      SplitHead(s, t);
      WithoutCons(h, rest + t, x);
      WithoutCons(h, rest, x);
      WithoutConcat(rest, t, x);
      if h != x {
        ConsAssociates(h, Without(rest, x), Without(t, x));
      }
    }
  }

  lemma ConsAssociates<T>(h: T, a: seq<T>, b: seq<T>)
    ensures [h] + (a + b) == ([h] + a) + b
  {
  }

  /** Deleting an element that was appended to a sequence not holding it gives the sequence back. */
  lemma {:induction false} WithoutAppended<T(!new)>(s: seq<T>, x: T)
    requires x !in s
    ensures Without(s + [x], x) == s
    decreases |s|
  {
    if |s| > 0 {
      assert (s + [x])[1..] == s[1..] + [x];
      WithoutAppended(s[1..], x);
    }
  }

  /** Moving `x` to the end of a duplicate-free list keeps it duplicate-free. */
  lemma WithoutAppendedNoDup<T(!new)>(s: seq<T>, x: T)
    requires NoDup(s)
    ensures NoDup(Without(s, x) + [x])
  {
    var full := Without(s, x) + [x];
    forall i, j | 0 <= i < j < |full| ensures full[i] != full[j] {
      if j == |full| - 1 {
        assert full[i] in Without(s, x);
      }
    }
  }

  /** Dropping a prefix keeps a list duplicate-free. */
  lemma NoDupSuffix<T>(s: seq<T>, k: nat)
    requires NoDup(s) && k <= |s|
    ensures NoDup(s[k..])
  {
    forall i, j | 0 <= i < j < |s| - k ensures s[k..][i] != s[k..][j] {
      assert s[k..][i] == s[k + i] && s[k..][j] == s[k + j];
    }
  }

  /** Writing a key's old value back undoes an update. */
  lemma MapRestored<K, V>(m: map<K, V>, k: K, v: V)
    requires k in m
    ensures m[k := v][k := m[k]] == m
  {
  }

  /** Deleting a key that was just added undoes the addition. */
  lemma MapAddedThenRemoved<K, V>(m: map<K, V>, k: K, v: V)
    requires k !in m
    ensures m[k := v] - {k} == m
  {
  }
}

=== FILE: spotify.dfy ===
/**
 * The decision logic of the track-provider service (server/services/spotify.ts):
 * the access-token cache, the preview-URL fallback, the search-result image choice,
 * and the bounded cache of recently played track ids together with the candidate
 * filter of the random-track request. Every HTTP call is replaced by its outcome,
 * passed in as a parameter.
 */
module Spotify {
  import opened Wrappers
  import opened Seqs

  /** The track descriptor the service hands to the game (album and duration omitted). */
  datatype Track = Track(id: string, name: string, artists: seq<string>, previewUrl: Option<string>)

  // ---------------------------------------------------------------------------
  // Access-token cache
  // ---------------------------------------------------------------------------

  /** Seconds shaved off the token lifetime reported by the token endpoint. */
  const ExpiryMarginSeconds: int := 60

  /** The module-level `cachedToken` and `tokenExpiryTime` (milliseconds). */
  datatype TokenCache = TokenCache(token: Option<string>, expiry: int)

  /** At start-up nothing is cached and the expiry time is 0. */
  const InitialCache: TokenCache := TokenCache(None, 0)

  /** What the token endpoint answered: a non-OK status or a thrown fetch, or a grant. */
  datatype TokenResponse = TokenRequestFailed | TokenGranted(accessToken: string, expiresIn: int)

  /** The cache after the call, and the token the call resolves to. */
  datatype TokenLookup = TokenLookup(cache: TokenCache, token: Option<string>)

  /** The cached token may be served at time `now`: it is a non-empty token that has not expired. */
  predicate CacheValid(cache: TokenCache, now: int) {
    Truthy(cache.token) && now < cache.expiry
  }

  /**
   * Validity is a window that only closes: a cache not usable at one clock
   * reading is not usable at any later one, until a call replaces it.
   */
  lemma ExpiredCacheStaysExpired(cache: TokenCache, now: int, later: int)
    requires !CacheValid(cache, now) && now <= later
    ensures !CacheValid(cache, later)
  {
  }

  /**
   * getSpotifyAccessToken, with the two credential variables and the endpoint's
   * answer as inputs. The clock is read twice: `now` for the validity test on
   * entry, and `grantedAt`, no earlier, once the answer has arrived, for the
   * expiry of a new token.
   */
  function GetAccessToken(cache: TokenCache, now: int, clientId: Option<string>,
                          clientSecret: Option<string>, response: TokenResponse, grantedAt: int): (r: TokenLookup)
    requires now <= grantedAt
    ensures CacheValid(cache, now) ==> r == TokenLookup(cache, cache.token)
    ensures !CacheValid(cache, now) && !(Truthy(clientId) && Truthy(clientSecret)) ==>
              r == TokenLookup(cache, None)
    ensures !CacheValid(cache, now) && Truthy(clientId) && Truthy(clientSecret) && response.TokenRequestFailed? ==>
              r == TokenLookup(cache, None)
    ensures !CacheValid(cache, now) && Truthy(clientId) && Truthy(clientSecret) && response.TokenGranted? ==>
              r.token == Some(response.accessToken) &&
              r.cache == TokenCache(Some(response.accessToken), grantedAt + (response.expiresIn - ExpiryMarginSeconds) * 1000)
    // a call either serves the cache untouched or returns exactly what it cached
    ensures r.cache == cache || r.token == r.cache.token
  {
    if CacheValid(cache, now) then TokenLookup(cache, cache.token)
    else if !Truthy(clientId) || !Truthy(clientSecret) then TokenLookup(cache, None)
    else match response
      case TokenRequestFailed => TokenLookup(cache, None)
      case TokenGranted(t, e) =>
        var c := TokenCache(Some(t), grantedAt + (e - ExpiryMarginSeconds) * 1000);
        TokenLookup(c, c.token)
  }

  /**
   * A non-empty token asked for at `t0` and granted at `g0` with a lifetime over
   * the margin is served from the cache, whatever the credentials and the endpoint
   * would say, by every later call strictly before `g0 + (expiresIn - 60) * 1000`,
   * and by no call at or after that instant.
   */
  lemma GrantedTokenIsReusedUntilExpiry(cache: TokenCache, t0: int, g0: int, id: string, secret: string,
                                        token: string, expiresIn: int,
                                        t1: int, id1: Option<string>, secret1: Option<string>,
                                        response1: TokenResponse, g1: int)
    requires !CacheValid(cache, t0) && id != "" && secret != "" && token != ""
    requires t0 <= g0 <= t1 <= g1
    ensures var granted := GetAccessToken(cache, t0, Some(id), Some(secret), TokenGranted(token, expiresIn), g0).cache;
            var later := GetAccessToken(granted, t1, id1, secret1, response1, g1);
            (t1 < g0 + (expiresIn - ExpiryMarginSeconds) * 1000 ==> later == TokenLookup(granted, Some(token))) &&
            (t1 >= g0 + (expiresIn - ExpiryMarginSeconds) * 1000 ==> !CacheValid(granted, t1))
  {
  }

  /** A grant whose lifetime does not exceed the 60-second margin is never served from the cache. */
  lemma ShortLivedTokenIsNeverReused(cache: TokenCache, t0: int, g0: int, id: string, secret: string,
                                     token: string, expiresIn: int, t1: int)
    requires !CacheValid(cache, t0) && id != "" && secret != ""
    requires expiresIn <= ExpiryMarginSeconds && t0 <= g0 <= t1
    ensures !CacheValid(GetAccessToken(cache, t0, Some(id), Some(secret), TokenGranted(token, expiresIn), g0).cache, t1)
  {
  }

  // ---------------------------------------------------------------------------
  // Preview URL fallback
  // ---------------------------------------------------------------------------

  /** One result of the preview finder; its `previewUrls` list may be missing. */
  datatype FinderEntry = FinderEntry(previewUrls: Option<seq<string>>)

  /**
   * What the preview-finder package did: it failed to load at start-up, the call
   * threw, or it returned a result object.
   */
  datatype FinderOutcome =
    | FinderUnavailable
    | FinderThrew
    | FinderReturned(success: bool, results: seq<FinderEntry>)

  /** The finder produced a usable URL list in its first result. */
  predicate FinderHasUrl(finder: FinderOutcome) {
    && finder.FinderReturned?
    && finder.success
    && |finder.results| > 0
    && finder.results[0].previewUrls.Some?
    && |finder.results[0].previewUrls.value| > 0
  }

  /** getPreviewUrl with the finder's behaviour as an input. */
  function GetPreviewUrl(apiPreviewUrl: Option<string>, finder: FinderOutcome): (r: Option<string>)
    ensures Truthy(apiPreviewUrl) ==> r == apiPreviewUrl
    ensures !Truthy(apiPreviewUrl) && FinderHasUrl(finder) ==>
              r == Some(finder.results[0].previewUrls.value[0])
    ensures r.None? <==> !Truthy(apiPreviewUrl) && !FinderHasUrl(finder)
  {
    if Truthy(apiPreviewUrl) then apiPreviewUrl
    else match finder
      case FinderUnavailable => None
      case FinderThrew => None
      case FinderReturned(success, results) =>
        if success && |results| > 0 && results[0].previewUrls.Some? && |results[0].previewUrls.value| > 0
        then Some(results[0].previewUrls.value[0])
        else None
  }

  /** Every URL the fallback hands out came from the API or from the finder's first result. */
  lemma PreviewUrlProvenance(apiPreviewUrl: Option<string>, finder: FinderOutcome)
    ensures var r := GetPreviewUrl(apiPreviewUrl, finder);
            r.Some? ==> r == apiPreviewUrl ||
                        (finder.FinderReturned? && |finder.results| > 0 &&
                         finder.results[0].previewUrls.Some? && r.value in finder.results[0].previewUrls.value)
  {
  }

  // ---------------------------------------------------------------------------
  // Search result image
  // ---------------------------------------------------------------------------

  /** An album image of a search result; its `url` may be missing. */
  datatype Image = Image(url: Option<string>)

  /** `images[i]?.url`: absent when the index is out of range. */
  function ImageUrl(images: seq<Image>, i: nat): Option<string> {
    if i < |images| then images[i].url else None
  }

  /** The autocomplete image: the smallest (third) image, else the first, else none. */
  function SearchImage(images: seq<Image>): (r: Option<string>)
    ensures Truthy(ImageUrl(images, 2)) ==> r == ImageUrl(images, 2)
    ensures !Truthy(ImageUrl(images, 2)) && Truthy(ImageUrl(images, 0)) ==> r == ImageUrl(images, 0)
    ensures r.None? <==> !Truthy(ImageUrl(images, 2)) && !Truthy(ImageUrl(images, 0))
    ensures r.Some? ==> r.value != "" && exists i :: 0 <= i < |images| && images[i].url == r
  {
    if Truthy(ImageUrl(images, 2)) then ImageUrl(images, 2)
    else if Truthy(ImageUrl(images, 0)) then ImageUrl(images, 0)
    else None
  }

  // ---------------------------------------------------------------------------
  // Recently played tracks
  // ---------------------------------------------------------------------------

  /** Capacity of the recent-track cache. */
  const MaxRecentTracks: nat := 50

  // The insertion-ordered `Set<string>` of recent ids is a duplicate-free sequence,
  // oldest first.

  /** `a` is what remains of `b` after dropping some of its oldest elements. */
  predicate IsSuffixOf(a: seq<string>, b: seq<string>) {
    |a| <= |b| && a == b[|b| - |a|..]
  }

  /**
   * Reference definition of addRecentTrack: move `id` to the newest position,
   * then keep only the newest 50 entries.
   */
  function AddRecent(recent: seq<string>, id: string): (r: seq<string>)
    requires NoDup(recent)
    ensures |r| > 0 && r[|r| - 1] == id
    ensures |r| <= MaxRecentTracks
    ensures IsSuffixOf(r, Without(recent, id) + [id])
    // only what exceeds the capacity is evicted
    ensures |r| == if |Without(recent, id)| + 1 > MaxRecentTracks then MaxRecentTracks else |Without(recent, id)| + 1
  {
    var full := Without(recent, id) + [id];
    if |full| > MaxRecentTracks then full[|full| - MaxRecentTracks..] else full
  }

  /** Adding an id keeps the cache duplicate-free, as the `Set` it models is. */
  lemma AddRecentKeepsNoDup(recent: seq<string>, id: string)
    requires NoDup(recent)
    ensures NoDup(AddRecent(recent, id))
  {
    var full := Without(recent, id) + [id];
    WithoutAppendedNoDup(recent, id);
    if |full| > MaxRecentTracks {
      NoDupSuffix(full, |full| - MaxRecentTracks);
    }
  }

  /**
   * addRecentTrack as written: delete the id if present, append it, then evict the
   * oldest entry while the cache holds more than 50.
   */
  method AddRecentTrack(recent: seq<string>, id: string) returns (r: seq<string>)
    requires NoDup(recent)
    ensures r == AddRecent(recent, id)
    ensures id in r && r[|r| - 1] == id
    ensures |r| <= MaxRecentTracks
    // nothing is evicted while there is room
    ensures |recent| < MaxRecentTracks ==> r == Without(recent, id) + [id]
    // re-adding a present id never grows the cache
    ensures id in recent ==> |r| <= |recent|
  {
    CountInNoDup(recent, id);
    r := Without(recent, id);
    r := r + [id];
    ghost var full := r;
    ghost var k := 0;
    while |r| > MaxRecentTracks
      invariant 0 <= k <= |full| && r == full[k..]
      invariant |full| > MaxRecentTracks ==> |r| >= MaxRecentTracks
      invariant |full| <= MaxRecentTracks ==> k == 0
      decreases |r|
    {
      r := r[1..];
      k := k + 1;
    }
    assert |full| > MaxRecentTracks ==> k == |full| - MaxRecentTracks;
  }

  /** A playlist entry: `item.track` may be null, and a track's id may be missing. */
  datatype TrackRef = TrackRef(id: Option<string>)

  /** The playlist tracks eligible for a random pick: they have an id and were not played recently. */
  function Candidates(items: seq<Option<TrackRef>>, recent: seq<string>): (c: seq<string>)
    ensures |c| <= |items|
    ensures forall x :: x in c <==>
              exists i :: 0 <= i < |items| && items[i].Some? && items[i].value.id == Some(x) &&
                          x != "" && x !in recent
  {
    if |items| == 0 then []
    else
      var rest := Candidates(items[1..], recent);
      assert forall i :: 1 <= i < |items| ==> items[i] == items[1..][i - 1];
      if items[0].Some? && Truthy(items[0].value.id) && items[0].value.id.value !in recent
      then [items[0].value.id.value] + rest
      else rest
  }

  /** One pass of the random pick: retry after clearing the cache, or a chosen id and the updated cache. */
  datatype Pick = RetryAfterClearing | Picked(trackId: string, recent: seq<string>)

  /**
   * The selection step of getRandomTrack over a fetched playlist; `choice` is the
   * random index `Math.floor(Math.random() * n)`.
   */
  function PickFromPlaylist(items: seq<Option<TrackRef>>, recent: seq<string>, choice: nat): (r: Pick)
    requires NoDup(recent)
    requires |Candidates(items, recent)| == 0 || choice < |Candidates(items, recent)|
    ensures r.RetryAfterClearing? <==> |Candidates(items, recent)| == 0
    ensures r.Picked? ==> r.trackId != "" && r.trackId !in recent && r.trackId in Candidates(items, recent)
    ensures r.Picked? ==> r.recent == AddRecent(recent, r.trackId)
  {
    var c := Candidates(items, recent);
    if |c| == 0 then RetryAfterClearing
    else Picked(c[choice], AddRecent(recent, c[choice]))
  }

  /**
   * The retry made after clearing the cache finds a candidate, provided the playlist
   * it fetches holds at least one track with an id.
   */
  lemma RetryAfterClearingFindsCandidate(items: seq<Option<TrackRef>>, k: nat)
    requires k < |items| && items[k].Some? && Truthy(items[k].value.id)
    ensures |Candidates(items, [])| > 0
  {
    assert items[k].value.id.value in Candidates(items, []);
  }
}

=== FILE: wrappers.dfy ===
/** Optional values, and the JavaScript truthiness rules the modelled code leans on. */
module Wrappers {

  /** A value that may be absent (`null` or `undefined` in the modelled code). */
  datatype Option<+T> = None | Some(value: T)

  /** A string-valued field is truthy when it is present and not the empty string. */
  predicate Truthy(s: Option<string>) {
    s.Some? && s.value != ""
  }

  /** A numeric field is truthy when it is present and not zero. */
  predicate TruthyInt(n: Option<int>) {
    n.Some? && n.value != 0
  }
}
